=== FILE: README.md ===
# musocks handshake core in Dafny

This project models musocks, a small SOCKS proxy, as pure functions over
the client's byte stream. It covers four pieces:

- **The SOCKS5 handshake** (`src/socks/socks5.rs`): method negotiation, the username/password sub-negotiation, the CONNECT request, and the reply.
- **The SOCKS4/4a handshake** (`src/socks/socks4.rs`).
- **Shared definitions** (`src/socks/mod.rs`): addresses, errors, and the connect to the upstream host.
- **Two connection handlers**:
  - The version dispatch and relay join of `src/socks/server.rs`.
  - The earlier SOCKS4-only server of `src/socks.rs`.

Each stage takes the bytes the client has sent and returns three things:

- the bytes the server wrote back,
- the outcome,
- the input it left unconsumed.

A stage that may connect also records the endpoint the connect primitive was asked for, if any (`attempt`).

Three things the real server gets from outside become parameters:

- **The connect primitive** (TCP connect and name resolution): a function `Connector` from an endpoint to "connected" or "failed with this OS error number".
- **The authentication policy**: a function from the client's authentication to accept or deny. `Socks5.DoAuthenticate` is the built-in policy.
- **The two copy loops of the relay**: represented only by how each one ended.

Modules:

- **`Wire`**: bytes, ports, and the reads the handshakes perform (`read_exact`, `read_u8`, `read_u16`, `read_until`). A read that runs past the end of the stream is tokio's `UnexpectedEof`.
- **`Utf8`**: the UTF-8 test the connect step applies to a domain name, defined by the well-formed byte sequences of Table 3-7 of the Unicode Standard. Encode/decode round trips show that the definition is the usual one.
- **`Socks`**: `mod.rs`.
- **`Socks5`**, **`Socks4`**: the handshakes.
- **`Socks5Properties`**, **`Socks4Properties`**: the handshakes stated over what a client sends, built with client-side encoders (`EncodeCredentials`, `EncodeRequest`).
- **`Relay`**: the `try_join!` of the two copies.
- **`Server`**: `server.rs`.
- **`LegacySocks`**: `socks.rs`.

Behaviour of the code worth knowing:

- **End of stream.** A fixed-size read (`read_exact`, `read_u8`, `read_u16`) that hits end of stream fails with an I/O error (`IoError(UnexpectedEof)`). No failure reply is written for it, in either handshake. `read_until` does not fail at end of stream: it returns what it has read.
- **A request that is not SOCKS5.** `request is not SOCKS5` is a protocol error, but it is answered with no reply at all.
- **A domain that is not UTF-8.** This is an I/O error (`io::Error::other`). It has no OS error number, so SOCKS5 answers it with status 0x01 (general failure) and SOCKS4 with 0x5B.
- **The empty domain name.** It is valid UTF-8 and is handed to connect-by-name.
- **A relay failure.** It reports only the error, with no partial byte counts.
- **The dispatch calls.** `server.rs` calls `socks4::handle` and `socks5::handle`, but the handshake modules only define `handshake`. The dispatch is modelled against `handshake`. For SOCKS5, the upstream stream is taken from the (request, stream) pair that `handshake` returns.

## Model

| member | source | states |
|---|---|---|
| Wire.ReadExact | src/socks/socks5.rs:110-111 | Succeeds exactly when enough bytes remain. The bytes read followed by the rest are the input. |
| Wire.ReadU8 | src/socks/socks5.rs:127 | Succeeds exactly when a byte remains. That byte followed by the rest is the input. |
| Wire.ReadU16 | src/socks/socks5.rs:185 | Succeeds exactly when two bytes remain. The big-endian encoding of the value read, followed by the rest, is the input. |
| Wire.ReadU16Encoded | src/socks/socks4.rs:36 | Reading a port back from its big-endian encoding recovers it and leaves what follows. |
| Wire.ReadUntil | src/socks/socks4.rs:41-42 | Never fails. The bytes taken followed by the rest are the input. |
| Wire.ReadUntilStopsAtFirst | src/socks/socks4.rs:41-42 | If the input holds the delimiter, the read ends with the first one and contains no earlier one. Otherwise it takes everything and leaves nothing. |
| Wire.ReadUntilTerminated | src/socks/socks4.rs:41-42 | For a string without the delimiter followed by the delimiter, the read takes the string and the delimiter and leaves exactly what follows. |
| Wire.ReadUntilUnterminated | src/socks/socks4.rs:45-46 | Without a delimiter, the read takes all remaining bytes and leaves nothing (end of stream is not an error). |
| Utf8.ValidUtf8 | src/socks/mod.rs:60 | The test `from_utf8` applies: a concatenation of well-formed sequences. Text that passes never contains the bytes C0, C1 or F5 to FF. |
| Utf8.SequenceLength | src/socks/mod.rs:60 | The length of the well-formed sequence at the front is at most 4 and fits the input. It is nonzero exactly for an ASCII byte or a valid multi-byte sequence. |
| Utf8.EncodedScalarRoundTrip | src/socks/mod.rs:60 | The encoding of every Unicode scalar value is recognised as one sequence of its own length and decodes back to the value. |
| Utf8.DecodedScalarRoundTrip | src/socks/mod.rs:60 | Every recognised sequence decodes to a scalar value whose encoding is exactly that sequence. |
| Utf8.EncodedTextIsValid | src/socks/mod.rs:60 | The encoding of any sequence of scalar values passes the UTF-8 test. |
| Utf8.AsciiIsValid | src/socks/mod.rs:60 | A domain made of ASCII bytes passes the UTF-8 test. |
| Utf8.CheckUtf8 | src/socks/mod.rs:60-62 | The loop's answer is true exactly when the bytes are valid UTF-8. |
| Socks.ConnectToUpstream | src/socks/mod.rs:55-67 | IPv4 and IPv6 connect to the literal address with the port. A domain connects by name only if it is UTF-8; otherwise nothing is attempted and the fault is "not UTF-8". When a connect is attempted, success depends only on the connector's answer for that endpoint, and a failure carries its OS error number. |
| Socks.NotUtf8NeverDialled | src/socks/mod.rs:59-62 | Bytes that are not UTF-8 never reach the connect primitive. |
| Socks.EmptyDomainIsDialled | src/socks/mod.rs:59-63 | An empty domain name passes the check and is connected to by name. |
| Socks.RawOsError | src/socks/socks5.rs:215 | A transport failure gives exactly the OS error number it carries; any other fault gives none. |
| Socks5.WriteServerChoice | src/socks/socks5.rs:115-121 | A client reading the two-byte message gets back exactly the method the server chose. |
| Socks5.WriteAuthResponse | src/socks/socks5.rs:142-148 | A client reading the reply as section 2 of RFC 1929 describes (status 0 is success, anything else failure) gets back exactly the status written. |
| Socks5.WriteResponse | src/socks/socks5.rs:193-204 | The reply has the fixed shape (version 5, reserved 0, IPv4 0.0.0.0:0) and carries the status's code. |
| Socks5.ReadAvailableMethods | src/socks/socks5.rs:106-113 | Succeeds exactly when `n_auth` bytes remain, and then takes exactly `n_auth` bytes: the list followed by the rest is the input. A method is in the list exactly when the client offers it among those bytes. |
| Socks5.ReadLengthPrefixed | src/socks/socks5.rs:130-137 | A successful read takes a length byte and exactly that many bytes after it, so the field is at most 255 bytes. |
| Socks5.ReadUsernameAndPassword | src/socks/socks5.rs:123-140 | A successful read consumes exactly one credential record: the ignored version byte, then a length-prefixed username and a length-prefixed password. |
| Socks5.AuthenticateClient | src/socks/socks5.rs:66-104 | Covers every case. A short method list is an EOF with nothing written. When username/password is offered it is chosen first with `05 02`. A truncated credential record then ends in an EOF with nothing more written. A complete record is put to the policy, which decides between `01 00` and `01 FF`, and what follows the record is left unread. Otherwise, "no authentication" (when offered) is put to the policy, which decides between `05 00` and `05 FF`. With neither offered, the reply is `05 FF` and "no acceptable auth methods". Success writes only `05 00` or `05 02 01 00`. The possible errors are exactly the three listed. |
| Socks5.ReadAddress | src/socks/socks5.rs:160-179 | For each supported address type, a successful read consumes exactly that type's encoding of the address it returns. A domain is at most 255 bytes. |
| Socks5.ReadRequest | src/socks/socks5.rs:150-191 | A short header is an EOF. A wrong version fails with nothing written. An unknown address type is answered with status 0x08 before the port is read. With a known address type, the only failure is an address or port cut off by the end of the stream: an EOF with nothing written. On success nothing is written and the request re-encodes to exactly the bytes consumed. |
| Socks5.DoAuthenticate | src/socks/socks5.rs:206-212 | Accepts exactly the anonymous client. |
| Socks5.IoErrorToStatus | src/socks/socks5.rs:214-224 | Statuses 0x03, 0x05 and 0x04 are produced exactly for OS errors 101, 111 and 113. Every other failure is mapped to a failure status, never to success or to 0x07/0x08. |
| Socks5.ServeRequest | src/socks/socks5.rs:50-63 | A request that fails to parse keeps exactly what reading it wrote (nothing, or the 0x08 reply), returns that error, and connects nowhere. A command other than CONNECT gets the 0x07 reply and connects nowhere. A CONNECT is connected to exactly where `connect_to_upstream` connects the request's address and port. It is answered Granted on success, or with the status classified from the error, which is also returned. |
| Socks5.Handshake | src/socks/socks5.rs:44-64 | A failed authentication ends the handshake with its own bytes and error, and connects nowhere. After a successful one, the request is read from where authentication stopped, and the outcome is the request's, written after the negotiation bytes. So at most one reply follows the negotiation, and it is Granted on success. |
| Socks5.AfterAuthentication | src/socks/socks5.rs:49-63 | Given what `authenticate_client` returned, an error stops the handshake with nothing further written or connected. Success hands the remaining input to the request step, and its bytes follow the negotiation bytes unchanged. |
| Socks5Properties.CredentialsRoundTrip | src/socks/socks5.rs:123-140 | Any credential record reads back as its username and password, whatever its version byte, and leaves what follows. |
| Socks5Properties.LengthPrefixedRoundTrip | src/socks/socks5.rs:130-137 | Any field of at most 255 bytes, sent after its length, reads back as itself and leaves what follows. |
| Socks5Properties.UsernamePasswordChosen | src/socks/socks5.rs:73-88 | If username/password is offered anywhere among any methods, it is chosen and the policy's verdict on exactly those credentials decides between `01 00` and `01 FF`. |
| Socks5Properties.BuiltInPolicyRefusesCredentials | src/socks/socks5.rs:73-85 | Under the built-in policy, offering credentials always ends with `05 02 01 FF`, an authentication failure, and no connect. |
| Socks5Properties.NoAuthenticationChosen | src/socks/socks5.rs:90-100 | "No authentication" without username/password puts an anonymous client to the policy: accept writes `05 00`, deny writes `05 FF`. |
| Socks5Properties.NoAcceptableMethod | src/socks/socks5.rs:102-103 | With neither method offered (including an empty offer), the whole handshake writes `05 FF`, fails, reads nothing more, and connects nowhere. |
| Socks5Properties.RequestRoundTrip | src/socks/socks5.rs:150-191 | Every encodable request reads back unchanged and consumes exactly its bytes, whatever the reserved byte holds. |
| Socks5Properties.AddressRoundTrip | src/socks/socks5.rs:160-179 | Every address reads back under its own type and consumes exactly its encoding. |
| Socks5Properties.ConnectOutcome | src/socks/socks5.rs:44-64 | After anonymous negotiation: a non-CONNECT gets status 0x07 and no connect. A CONNECT goes to exactly the requested endpoint and gets 0x00 on success, or the status classified from the failure together with that failure. |
| Socks5Properties.CredentialsAcceptedThenServed | src/socks/socks5.rs:44-88 | When the policy accepts the credentials, the request after the record is served as after anonymous negotiation: `05 02 01 00`, then a 0x07 reply for a non-CONNECT, or a connect to exactly the requested destination answered Granted or with the classified status. |
| Socks5Properties.RequestNotSocks5Unanswered | src/socks/socks5.rs:154-158 | After `05 00`, a request whose first byte is not 5 consumes its four header bytes, gets no reply, fails with "request is not SOCKS5", and connects nowhere. |
| Socks5Properties.UnknownAddressTypeAnswered | src/socks/socks5.rs:180-183 | Address types other than 1, 3 and 4 are answered with `05 08 00 01 00 00 00 00 00 00` and the bytes after the header are left unread. |
| Socks5Properties.StatusCodesDistinct | src/socks/socks5.rs:7-16 | The reply codes of distinct statuses differ. |
| Socks4.PopUndoesPush | src/socks/socks4.rs:47 | Popping removes exactly the byte appended last, so a domain read through its NUL comes back without the NUL. |
| Socks4.ReadRequest | src/socks/socks4.rs:35-58 | Fails exactly when fewer than 6 bytes remain. On success it keeps the command, reads the port big-endian, and returns a domain exactly for the address 0.0.0.x with x nonzero (otherwise the literal address). It consumes a prefix of the input. |
| Socks4.ReadDestination | src/socks/socks4.rs:41-51 | After the address, it returns a domain exactly for a SOCKS4a address, and the literal address otherwise. What it leaves unread is a tail of its input. |
| Socks4.IsSocks4a | src/socks/socks4.rs:73-75 | Holds exactly for the addresses whose 32-bit value is 1 to 255, i.e. 0.0.0.x with x nonzero. |
| Socks4.WriteResponse | src/socks/socks4.rs:60-71 | The reply has the fixed shape (version 0, zeroed port and address) and carries the status's code. |
| Socks4.Handshake | src/socks/socks4.rs:14-33 | A short request writes nothing. Otherwise exactly one reply is written after the whole request is read. A non-CONNECT is rejected without a connect. The reply is Granted exactly on success, and a connect happens only for CONNECT. A CONNECT is attempted at exactly the endpoint `connect_to_upstream` derives from the parsed address (the domain for SOCKS4a). A connect error is answered with 0x5B and returned as that I/O error. |
| Socks4Properties.ZeroAddressIsLiteral | src/socks/socks4.rs:73-75 | 0.0.0.0 does not announce a domain name. |
| Socks4Properties.FixedFieldsRoundTrip | src/socks/socks4.rs:35-58 | After the port, the address and a NUL-terminated user id, a plain request is complete, and a SOCKS4a request reads its domain from what follows. |
| Socks4Properties.LiteralRequestRoundTrip | src/socks/socks4.rs:35-58 | A plain request reads back as its literal address and port, and consumes the user id and its NUL exactly. |
| Socks4Properties.DomainRequestRoundTrip | src/socks/socks4.rs:44-48 | A SOCKS4a request reads back as the domain after the user id, without its NUL, and leaves what follows. |
| Socks4Properties.DomainAtEndOfStreamLosesLastByte | src/socks/socks4.rs:46-47 | If the stream ends before the domain's NUL, the dropped byte is the domain's own last byte. |
| Socks4Properties.UserIdAtEndOfStream | src/socks/socks4.rs:41-48 | If the stream ends inside the user id of a SOCKS4a request, the domain read finds nothing: the request is complete, with an empty domain and nothing left. |
| Socks4Properties.CommandCheckedAfterRequest | src/socks/socks4.rs:19-23 | What is left for the relay does not depend on the command: the whole request is read first. |
| Socks4Properties.LiteralConnectOutcome | src/socks/socks4.rs:24-32 | A CONNECT to a literal address connects to exactly that address and port. Success is answered `00 5A ...`, failure `00 5B ...` together with the connect's error. |
| Socks4Properties.DomainConnectOutcome | src/socks/socks4.rs:24-32 | A SOCKS4a CONNECT is connected by name to the domain after the user id, with the requested port, and never to 0.0.0.x. A UTF-8 domain gets `00 5A ...` or `00 5B ...` by the connect's outcome. A domain that is not UTF-8 is connected nowhere and gets `00 5B ...`. |
| Relay.DoProxy | src/socks/server.rs:97-108 | Succeeds exactly when both copies did, with (uploaded, downloaded). A failure is the error of a copy that failed; when both fail, it is the one that failed first. |
| Server.HandleConn | src/socks/server.rs:53-95 | A short preamble is an EOF. Any version but 4 and 5 is refused with nothing written. Versions 4 and 5 pass the second byte to their handshake, whose bytes, remaining input and connect the handler reports. A failed handshake is reported as such. After a successful one, the relay decides: its counts are returned, or its error as a relay failure. |
| Server.Proxy | src/socks/server.rs:79-86 | Succeeds exactly when both copies did, with (uploaded, downloaded). Otherwise it is a relay failure carrying the error the join reports. |
| Server.Socks4ConnectScenario | src/socks/server.rs:68-73 | `04 01 00 50 7F 00 00 01 00`, with 127.0.0.1:80 accepting, gets `00 5A 00 00 00 00 00 00` and a connect to exactly 127.0.0.1:80. |
| Server.Socks5RefusedScenario | src/socks/server.rs:68-73 | An anonymous SOCKS5 CONNECT to 0.0.0.0:80 that is refused with OS error 111 gets `05 00` and then `05 05 00 01 00 00 00 00 00 00`, and ends with that error and no relay. |
| LegacySocks.ReadConnectRequest | src/socks.rs:112-132 | Six bytes are read before the command is checked, so a non-CONNECT leaves the user id unread. A CONNECT takes the big-endian port and the literal address, and consumes the user id through its NUL. |
| LegacySocks.WriteReply | src/socks.rs:134-142 | The reply has the SOCKS4 reply shape and always carries status 0x5A. |
| LegacySocks.HandleSocks4 | src/socks.rs:102-110 | A connect happens exactly for a complete CONNECT request, and the Granted reply is written exactly then, before the connect's outcome is known. A failed request writes nothing, connects nowhere, and ends with exactly the error and remaining input of `read_connect_request`. The connect goes to the literal IPv4 address and port. |
| LegacySocks.HandleConn | src/socks.rs:62-100 | Only version 4 is served; every other version, 5 included, is refused with nothing written. A served request reports the handshake's bytes and connect, and the relay decides the result: its counts, or its error as a relay failure. |
| LegacySocks.RequestRoundTrip | src/socks.rs:112-132 | Any CONNECT request reads back as its address and port. 0.0.0.x is taken literally, and the user id is consumed through its NUL. |
| LegacySocks.IgnoresSocks4a | src/socks.rs:123-124 | A SOCKS4a request connects to the literal 0.0.0.x, and the domain and its NUL are left in the stream for the relay. |
| LegacySocks.GrantedBeforeConnect | src/socks.rs:107-109 | A CONNECT whose upstream fails is still answered `00 5A ...`, and ends with the connect's error. |

## Left out

- **The accept loop, the per-connection task, and logging** (`serve`, `handle`, the `slog` calls, the elapsed time): these are I/O and observability with no effect on the bytes exchanged.
- **Real TCP connect and name resolution**: the `Connector` parameter stands in for them. Only the endpoint asked for and the answer given are modelled.
- **The copy loops and half-close**: the bytes of `copy_buf`/`copy` and the dropping of the write halves are not modelled. Each copy is represented by its final count or error. When both copies fail, which error `try_join!` reports depends on scheduling and is a parameter.
- **Failures of writes to the client**: each `write_all(...).await?` is assumed to succeed. A failed write would end the handshake with an I/O error after the bytes that got through.
- **The `Display` implementation for `Address`**: it is used only for logging.
- **`SmallVec` inline capacity**: the model uses plain sequences.
- **BufReader read-ahead in the legacy server**: `socks.rs` wraps the client in a `BufReader` for the handshake and then splits the raw stream for the relay. Bytes the buffer read past the user id are lost to the relay. `LegacySocks.HandleSocks4` reports the unconsumed input as if nothing had been read ahead, because how far the buffer reads depends on packet boundaries.
- **Counter widths**: the byte counts are `u64` values (`U64`), taken from the copy outcome as given. The copy loop that would produce them is not modelled.

=== FILE: legacy.dfy ===
/**
 * The earlier, SOCKS4-only server of `src/socks.rs`. It reads the preamble,
 * accepts only version 4, parses a CONNECT request with a literal IPv4
 * address (no SOCKS4a), answers "granted" BEFORE it connects, and then
 * relays.
 */
module LegacySocks {
  import opened Results
  import opened Wire
  import opened Socks
  import opened Relay
  import Socks4

  /** The parsed request: only the upstream address and port are kept. */
  datatype ConnectRequest = ConnectRequest(upstreamAddr: (Octets4, Port))

  /** Why a connection of the legacy server ended without a completed relay. */
  datatype Failure =
    | PreambleFailed(fault: IoFault)      // the preamble could not be read
    | UnsupportedVersion(version: Byte)   // "unsupported SOCKS version"
    | RequestFailed(error: Error)         // the request was short or not CONNECT
    | UpstreamFailed(fault: IoFault)      // "failed to connect to upstream"
    | RelayFailed(fault: IoFault)         // a copy of the relay failed

  const CONNECT_ONLY: string := "Only CONNECT command is supported"

  /**
   * `read_connect_request`: six bytes (big-endian port, four address bytes)
   * are read first; only then is the command checked, so a non-CONNECT
   * request leaves its user id unread. A CONNECT request consumes the user
   * id up to and including its NUL, or to the end of the stream.
   */
  function ReadConnectRequest(input: seq<Byte>, cmd: Byte): (r: Step<ConnectRequest>)
    ensures r.written == []
    ensures |input| < 6 ==> r == Step([], Err(IoError(UnexpectedEof)), [])
    ensures |input| >= 6 && cmd != COMMAND_CONNECT ==> r == Step([], Err(ProtocolError(CONNECT_ONLY)), input[6..])
    ensures r.result.Ok? <==> |input| >= 6 && cmd == COMMAND_CONNECT
    ensures r.result.Ok? ==>
              && EncodeU16(r.result.value.upstreamAddr.1) == input[..2]
              && r.result.value.upstreamAddr.0 == input[2..6]
              && r.rest == ReadUntil(input[6..], NUL).rest
  {
    match ReadExact(input, 6)
    case Eof => Step([], Err(IoError(UnexpectedEof)), [])
    case Got(buf, afterBuf) =>
      if cmd != COMMAND_CONNECT then
        Step([], Err(ProtocolError(CONNECT_ONLY)), afterBuf)
      else
        var port := buf[0] as int * 0x100 + buf[1] as int;
        var dst: Octets4 := buf[2..6];
        assert EncodeU16(port) == input[..2];
        var ident := ReadUntil(afterBuf, NUL);
        Step([], Ok(ConnectRequest((dst, port))), ident.rest)
  }

  /** `write_reply`: always version 0, status 0x5A ("granted"), zeroed port and address. */
  function WriteReply(): (b: seq<Byte>)
    ensures Socks4.IsReply(b) && Socks4.ReplyStatus(b) == Some(Socks4.Status.Granted.Code())
  {
    Socks4.WriteResponse(Socks4.Status.Granted)
  }

  /**
   * `handle_socks4`: read the request, write the "granted" reply, and only
   * then connect to the requested IPv4 address. A failed request writes
   * nothing and connects nowhere; once the request is read the reply is
   * written whatever the connect does.
   */
  function HandleSocks4(input: seq<Byte>, cmd: Byte, dial: Connector): (x: Exchange<Upstream, Failure>)
    ensures x.attempt.Some? <==> |input| >= 6 && cmd == COMMAND_CONNECT
    ensures x.attempt.Some? <==> x.written == WriteReply()
    ensures x.attempt.None? ==> x.written == [] && x.result.Err? && x.result.error.RequestFailed?
    ensures ReadConnectRequest(input, cmd).result.Err? ==>
              x == Exchange([], Err(RequestFailed(ReadConnectRequest(input, cmd).result.error)), ReadConnectRequest(input, cmd).rest, None)
    ensures x.attempt.Some? ==>
              && x.attempt.value.SocketV4?
              && EncodeU16(x.attempt.value.port) == input[..2]
              && x.attempt.value.ip4 == input[2..6]
              && x.rest == ReadUntil(input[6..], NUL).rest
              && (x.result.Ok? <==> dial(x.attempt.value).Connected?)
              && (x.result.Ok? ==> x.result.value.peer == x.attempt.value)
              && (x.result.Err? ==> x.result.error == UpstreamFailed(Transport(dial(x.attempt.value).osError)))
  {
    var req := ReadConnectRequest(input, cmd);
    match req.result
    case Err(e) => Exchange([], Err(RequestFailed(e)), req.rest, None)
    case Ok(request) =>
      var target := SocketV4(request.upstreamAddr.0, request.upstreamAddr.1);
      match dial(target)
      case Connected => Exchange(WriteReply(), Ok(Upstream(target)), req.rest, Some(target))
      case Failed(os) => Exchange(WriteReply(), Err(UpstreamFailed(Transport(os))), req.rest, Some(target))
  }

  /**
   * `handle_conn` of the legacy server: read the two-byte preamble, accept
   * only version 4 (the second byte is the command), and relay once the
   * upstream is connected. Every other version, 5 included, ends the
   * connection with nothing written.
   */
  function HandleConn(input: seq<Byte>, dial: Connector, upload: CopyOutcome, download: CopyOutcome,
                      firstFailed: Direction): (x: Exchange<(U64, U64), Failure>)
    ensures |input| < 2 ==> x == Exchange([], Err(PreambleFailed(UnexpectedEof)), [], None)
    ensures |input| >= 2 && input[0] != SOCKS4 ==> x == Exchange([], Err(UnsupportedVersion(input[0])), input[2..], None)
    ensures |input| >= 2 && input[0] == SOCKS4 ==>
              var h := HandleSocks4(input[2..], input[1], dial);
              && x.written == h.written && x.rest == h.rest && x.attempt == h.attempt
              && (h.result.Err? ==> x.result == Err(h.result.error))
              && (h.result.Ok? ==> (x.result.Ok? <==> upload.Copied? && download.Copied?))
              && (h.result.Ok? && x.result.Err? ==>
                    x.result.error.RelayFailed? && DoProxy(upload, download, firstFailed) == Err(x.result.error.fault))
    ensures x.result.Ok? ==> x.attempt.Some? && x.result.value == (upload.bytes, download.bytes)
  {
    match ReadExact(input, 2)
    case Eof => Exchange([], Err(PreambleFailed(UnexpectedEof)), [], None)
    case Got(preamble, rest) =>
      if preamble[0] != SOCKS4 then
        Exchange([], Err(UnsupportedVersion(preamble[0])), rest, None)
      else
        var h := HandleSocks4(rest, preamble[1], dial);
        match h.result
        case Err(e) => Exchange(h.written, Err(e), h.rest, h.attempt)
        case Ok(_) =>
          var relayed :=
            match DoProxy(upload, download, firstFailed)
            case Ok(counts) => Ok(counts)
            case Err(e) => Err(RelayFailed(e));
          Exchange(h.written, relayed, h.rest, h.attempt)
  }

  /**
   * A SOCKS4 client's CONNECT reads back as the address and port it
   * carries, whatever the address: 0.0.0.x is taken literally, and the user
   * id is consumed up to and including its NUL.
   */
  lemma RequestRoundTrip(port: Port, dst: Octets4, ident: seq<Byte>, rest: seq<Byte>)
    requires NUL !in ident
    ensures ReadConnectRequest(Socks4.EncodeRequest(port, dst, ident) + rest, COMMAND_CONNECT)
         == Step([], Ok(ConnectRequest((dst, port))), rest)
  {
    var input := Socks4.EncodeRequest(port, dst, ident) + rest;
    var afterBuf := ident + [NUL] + rest;
    assert input == EncodeU16(port) + dst + afterBuf;
    assert input[6..] == afterBuf;
    ReadU16Encoded(port, dst + afterBuf);
    ReadUntilTerminated(ident, NUL, rest);
  }

  /**
   * A SOCKS4a request is not recognised: the connect goes to the literal
   * address 0.0.0.x, and the domain name with its NUL is left in the stream
   * for the relay.
   */
  lemma IgnoresSocks4a(port: Port, dst: Octets4, ident: seq<Byte>, domain: seq<Byte>, rest: seq<Byte>, dial: Connector)
    requires Socks4.IsSocks4a(dst) && NUL !in ident
    ensures var x := HandleSocks4(Socks4.EncodeRequest(port, dst, ident) + (domain + [NUL] + rest), COMMAND_CONNECT, dial);
            x.attempt == Some(SocketV4(dst, port)) && x.rest == domain + [NUL] + rest
  {
    RequestRoundTrip(port, dst, ident, domain + [NUL] + rest);
  }

  /**
   * The reply goes out before the connect: a CONNECT whose upstream refuses
   * is still answered "granted" (0x5A), and the connection then ends with
   * the connect's error.
   */
  lemma GrantedBeforeConnect(port: Port, dst: Octets4, ident: seq<Byte>, rest: seq<Byte>, dial: Connector)
    requires NUL !in ident && dial(SocketV4(dst, port)).Failed?
    ensures HandleSocks4(Socks4.EncodeRequest(port, dst, ident) + rest, COMMAND_CONNECT, dial)
         == Exchange([0x00, 0x5A, 0x00, 0x00, 0x00, 0x00, 0x00, 0x00],
                     Err(UpstreamFailed(Transport(dial(SocketV4(dst, port)).osError))), rest, Some(SocketV4(dst, port)))
  {
    RequestRoundTrip(port, dst, ident, rest);
  }
}

=== FILE: relay.dfy ===
/**
 * The combining step of the relay (`do_proxy` in `src/socks/server.rs` and
 * in `src/socks.rs`): two copies, client to upstream and upstream to client,
 * joined so that the relay succeeds only when both do. The copy loops
 * themselves run concurrently and are represented only by how they ended.
 */
module Relay {
  import opened Results
  import opened Wire
  import opened Socks

  /** The two directions of the relay. */
  datatype Direction = Upload | Download

  /** How one `copy_and_drop` ended: the number of bytes it copied, or the error that stopped it. */
  datatype CopyOutcome = Copied(bytes: U64) | CopyFailed(fault: IoFault)

  /**
   * `do_proxy`: the pair (bytes uploaded, bytes downloaded) when both
   * copies succeed, otherwise an error of a copy that failed. When both
   * fail, `try_join!` reports the one that failed first, which is a matter
   * of scheduling and is given here as `firstFailed`.
   */
  function DoProxy(upload: CopyOutcome, download: CopyOutcome, firstFailed: Direction): (r: Result<(U64, U64), IoFault>)
    ensures r.Ok? <==> upload.Copied? && download.Copied?
    ensures r.Ok? ==> r.value.0 == upload.bytes && r.value.1 == download.bytes
    ensures r.Err? ==> (upload.CopyFailed? && r.error == upload.fault) || (download.CopyFailed? && r.error == download.fault)
    ensures upload.CopyFailed? && (download.Copied? || firstFailed == Upload) ==> r == Err(upload.fault)
    ensures download.CopyFailed? && (upload.Copied? || firstFailed == Download) ==> r == Err(download.fault)
  {
    match (upload, download)
    case (Copied(up), Copied(down)) => Ok((up, down))
    case (CopyFailed(e), Copied(_)) => Err(e)
    case (Copied(_), CopyFailed(e)) => Err(e)
    case (CopyFailed(e1), CopyFailed(e2)) => Err(if firstFailed == Upload then e1 else e2)
  }
}

=== FILE: results.dfy ===
/** Option and Result, the two failure-carrying shapes the model needs. */
module Results {

  /** A value that may be absent (Rust's `Option`). */
  datatype Option<+T> = None | Some(value: T)

  /** A value or the error that prevented it (Rust's `Result`). */
  datatype Result<+T, +E> = Ok(value: T) | Err(error: E)
}

=== FILE: server.dfy ===
/**
 * The per-connection handler of `src/socks/server.rs`: the two-byte
 * preamble selects the protocol version, its second byte goes to the chosen
 * handshake, and a successful handshake is followed by the relay.
 */
module Server {
  import opened Results
  import opened Wire
  import opened Socks
  import Socks4
  import Socks5
  import opened Relay
  import Socks4Properties
  import Socks5Properties

  /** Why a connection ended without a completed relay. */
  datatype Failure =
    | PreambleFailed(fault: IoFault)      // the preamble could not be read
    | UnsupportedVersion(version: Byte)   // "unsupported SOCKS version"
    | HandshakeFailed(error: Error)       // the SOCKS4 or SOCKS5 handshake failed
    | RelayFailed(fault: IoFault)         // a copy of the relay failed

  /**
   * `handle_conn`: read the preamble, dispatch on its first byte, and relay.
   * Version 4 passes the second byte on as the command, version 5 as the
   * number of offered methods; any other version ends the connection with
   * nothing written. The result is (bytes uploaded, bytes downloaded).
   */
  function HandleConn(input: seq<Byte>, policy: Socks5.AuthPolicy, dial: Connector,
                      upload: CopyOutcome, download: CopyOutcome, firstFailed: Direction): (x: Exchange<(U64, U64), Failure>)
    ensures |input| < 2 ==> x == Exchange([], Err(PreambleFailed(UnexpectedEof)), [], None)
    ensures |input| >= 2 && input[0] != SOCKS4 && input[0] != SOCKS5 ==>
              x == Exchange([], Err(UnsupportedVersion(input[0])), input[2..], None)
    ensures |input| >= 2 && input[0] == SOCKS4 ==>
              var h := Socks4.Handshake(input[2..], input[1], dial);
              && x.written == h.written && x.rest == h.rest && x.attempt == h.attempt
              && (h.result.Err? ==> x.result == Err(HandshakeFailed(h.result.error)))
              && (h.result.Ok? ==> (x.result.Ok? <==> upload.Copied? && download.Copied?))
              && (h.result.Ok? && x.result.Err? ==>
                    x.result.error.RelayFailed? && DoProxy(upload, download, firstFailed) == Err(x.result.error.fault))
    ensures |input| >= 2 && input[0] == SOCKS5 ==>
              var h := Socks5.Handshake(input[2..], input[1], policy, dial);
              && x.written == h.written && x.rest == h.rest && x.attempt == h.attempt
              && (h.result.Err? ==> x.result == Err(HandshakeFailed(h.result.error)))
              && (h.result.Ok? ==> (x.result.Ok? <==> upload.Copied? && download.Copied?))
              && (h.result.Ok? && x.result.Err? ==>
                    x.result.error.RelayFailed? && DoProxy(upload, download, firstFailed) == Err(x.result.error.fault))
    ensures x.result.Ok? ==> x.attempt.Some? && x.result.value == (upload.bytes, download.bytes)
  {
    match ReadExact(input, 2)
    case Eof => Exchange([], Err(PreambleFailed(UnexpectedEof)), [], None)
    case Got(preamble, rest) =>
      var version := preamble[0];
      if version == SOCKS4 then
        var h := Socks4.Handshake(rest, preamble[1], dial);
        match h.result
        case Err(e) => Exchange(h.written, Err(HandshakeFailed(e)), h.rest, h.attempt)
        case Ok(_) => Exchange(h.written, Proxy(upload, download, firstFailed), h.rest, h.attempt)
      else if version == SOCKS5 then
        var h := Socks5.Handshake(rest, preamble[1], policy, dial);
        match h.result
        case Err(e) => Exchange(h.written, Err(HandshakeFailed(e)), h.rest, h.attempt)
        case Ok(_) => Exchange(h.written, Proxy(upload, download, firstFailed), h.rest, h.attempt)
      else
        Exchange([], Err(UnsupportedVersion(version)), rest, None)
  }

  /** The relay's result as the handler reports it. */
  function Proxy(upload: CopyOutcome, download: CopyOutcome, firstFailed: Direction): (r: Result<(U64, U64), Failure>)
    ensures r.Ok? <==> upload.Copied? && download.Copied?
    ensures r.Ok? ==> r.value == (upload.bytes, download.bytes)
    ensures r.Err? ==> r.error.RelayFailed? && DoProxy(upload, download, firstFailed) == Err(r.error.fault)
  {
    match DoProxy(upload, download, firstFailed)
    case Ok(counts) => Ok(counts)
    case Err(e) => Err(RelayFailed(e))
  }

  /**
   * A SOCKS4 client sends `04 01 00 50 7F 00 00 01 00` and 127.0.0.1:80
   * accepts: the reply is `00 5A 00 00 00 00 00 00`, the connect went to
   * exactly 127.0.0.1:80, and the relay's counts are reported.
   */
  lemma Socks4ConnectScenario(input: seq<Byte>, policy: Socks5.AuthPolicy, dial: Connector, upload: CopyOutcome,
                              download: CopyOutcome, firstFailed: Direction)
    requires input == [0x04, 0x01, 0x00, 0x50, 0x7F, 0x00, 0x00, 0x01, 0x00]
    requires dial(SocketV4([127, 0, 0, 1], 80)) == Connected
    ensures var x := HandleConn(input, policy, dial, upload, download, firstFailed);
            && x.written == [0x00, 0x5A, 0x00, 0x00, 0x00, 0x00, 0x00, 0x00]
            && x.attempt == Some(SocketV4([127, 0, 0, 1], 80))
            && x.rest == []
            && (upload.Copied? && download.Copied? ==> x.result == Ok((upload.bytes, download.bytes)))
  {
    ConnectScenarioBytes(input);
    Socks4Properties.LiteralConnectOutcome(80, [127, 0, 0, 1], [], [], dial);
  }

  /** The bytes of the SOCKS4 scenario: the preamble, then the port, the address and an empty user id. */
  lemma ConnectScenarioBytes(input: seq<Byte>)
    requires input == [0x04, 0x01, 0x00, 0x50, 0x7F, 0x00, 0x00, 0x01, 0x00]
    ensures |input| >= 2 && input[0] == SOCKS4 && input[1] == COMMAND_CONNECT
    ensures input[2..] == Socks4.EncodeRequest(80, [127, 0, 0, 1], []) + []
    ensures !Socks4.IsSocks4a([127, 0, 0, 1])
  {
    assert EncodeU16(80) == [0x00, 0x50];
  }

  /**
   * A SOCKS5 client offers "no authentication" (`05 01 00`) and asks to
   * CONNECT to 0.0.0.0:80 (`05 01 00 01 00 00 00 00 00 50`), which refuses:
   * the server writes `05 00`, then `05 05 00 01 00 00 00 00 00 00`, and the
   * connection ends with the refusal and no relay.
   */
  lemma Socks5RefusedScenario(input: seq<Byte>, dial: Connector, upload: CopyOutcome, download: CopyOutcome,
                              firstFailed: Direction)
    requires input == [0x05, 0x01, 0x00, 0x05, 0x01, 0x00, 0x01, 0x00, 0x00, 0x00, 0x00, 0x00, 0x50]
    requires dial(SocketV4([0, 0, 0, 0], 80)) == Failed(Some(111))
    ensures HandleConn(input, Socks5.DoAuthenticate, dial, upload, download, firstFailed)
         == Exchange([0x05, 0x00, 0x05, 0x05, 0x00, 0x01, 0x00, 0x00, 0x00, 0x00, 0x00, 0x00],
                     Err(HandshakeFailed(IoError(Transport(Some(111))))), [], Some(SocketV4([0, 0, 0, 0], 80)))
  {
    var req := Request(0x01, IPv4([0, 0, 0, 0]), 80);
    RefusedScenarioBytes(input, req);
    Socks5Properties.ConnectOutcome([0x00], req, 0x00, [], dial);
    assert Socks5.IoErrorToStatus(Transport(Some(111))) == Socks5.ConnectionRefused;
  }

  /** The bytes of the refused-connect scenario: the preamble, the one offered method, and the encoded request. */
  lemma RefusedScenarioBytes(input: seq<Byte>, req: Request)
    requires input == [0x05, 0x01, 0x00, 0x05, 0x01, 0x00, 0x01, 0x00, 0x00, 0x00, 0x00, 0x00, 0x50]
    requires req == Request(0x01, IPv4([0, 0, 0, 0]), 80)
    ensures |input| >= 2 && input[0] == SOCKS5 && input[1] == 0x01
    ensures input[2..] == [0x00] + Socks5.EncodeRequest(req, 0x00) + []
    ensures [0x05, 0x00] + Socks5.WriteResponse(Socks5.ConnectionRefused)
         == [0x05, 0x00, 0x05, 0x05, 0x00, 0x01, 0x00, 0x00, 0x00, 0x00, 0x00, 0x00]
  {
    assert EncodeU16(80) == [0x00, 0x50];
  }
}

=== FILE: socks.dfy ===
/**
 * Definitions shared by both handshakes (`src/socks/mod.rs`): protocol
 * constants, the error taxonomy, destination addresses, requests, and the
 * connect to the upstream host. The real TCP connect and name resolution are
 * an oracle, `Connector`, which is told the endpoint and answers whether the
 * connection was made.
 */
module Socks {
  import opened Results
  import opened Wire
  import Utf8

  const SOCKS4: Byte := 4
  const SOCKS5: Byte := 5
  const COMMAND_CONNECT: Byte := 0x01

  /** What can go wrong in the transport. */
  datatype IoFault =
    | UnexpectedEof                    // a read ran past the end of the client's stream
    | DomainNotUtf8                    // the domain name failed the UTF-8 test before connecting
    | Transport(osError: Option<int>)  // a failed connect or copy, with the OS error number if it has one

  /** The handshake errors: transport failures and protocol violations with their message. */
  datatype Error = IoError(fault: IoFault) | ProtocolError(message: string)

  type Octets4 = s: seq<Byte> | |s| == 4 witness [0, 0, 0, 0]
  type Octets16 = s: seq<Byte> | |s| == 16 witness [0, 0, 0, 0, 0, 0, 0, 0, 0, 0, 0, 0, 0, 0, 0, 0]

  /** A destination as the client sent it. A domain is raw bytes: its encoding is checked only when connecting. */
  datatype Address = IPv4(ip4: Octets4) | IPv6(ip6: Octets16) | Domain(name: seq<Byte>)

  /** A request from a SOCKS client. */
  datatype Request = Request(command: Byte, address: Address, port: Port)

  /** What the connect primitive is asked to reach: a literal socket address, or a host name and port. */
  datatype Endpoint =
    | SocketV4(ip4: Octets4, port: Port)
    | SocketV6(ip6: Octets16, port: Port)
    | HostPort(host: seq<Byte>, port: Port)

  /** The connect primitive's answer. */
  datatype DialOutcome = Connected | Failed(osError: Option<int>)

  /** The platform's connect (and connect-by-name) facility. */
  type Connector = Endpoint -> DialOutcome

  /** A live connection to the upstream host. */
  datatype Upstream = Upstream(peer: Endpoint)

  /** The outcome of `connect_to_upstream`, and the endpoint the connect primitive was asked for, if it was asked at all. */
  datatype Connection = Connection(attempt: Option<Endpoint>, result: Result<Upstream, IoFault>)

  /**
   * `connect_to_upstream`: a literal address is connected to as it is; a
   * domain name must be UTF-8 and is then resolved and connected to by name.
   */
  function ConnectToUpstream(addr: Address, port: Port, dial: Connector): (c: Connection)
    ensures c.attempt.None? <==> addr.Domain? && !Utf8.ValidUtf8(addr.name)
    ensures c.attempt.None? ==> c.result == Err(DomainNotUtf8)
    ensures addr.IPv4? ==> c.attempt == Some(SocketV4(addr.ip4, port))
    ensures addr.IPv6? ==> c.attempt == Some(SocketV6(addr.ip6, port))
    ensures addr.Domain? && Utf8.ValidUtf8(addr.name) ==> c.attempt == Some(HostPort(addr.name, port))
    ensures c.attempt.Some? ==>
              && c.attempt.value.port == port
              && (c.result.Ok? <==> dial(c.attempt.value).Connected?)
              && (c.result.Ok? ==> c.result.value.peer == c.attempt.value)
              && (c.result.Err? ==> c.result.error == Transport(dial(c.attempt.value).osError))
  {
    var target :=
      match addr
      case IPv4(ip) => Some(SocketV4(ip, port))
      case IPv6(ip) => Some(SocketV6(ip, port))
      case Domain(d) => if Utf8.ValidUtf8(d) then Some(HostPort(d, port)) else None;
    match target
    case None => Connection(None, Err(DomainNotUtf8))
    case Some(e) =>
      match dial(e)
      case Connected => Connection(target, Ok(Upstream(e)))
      case Failed(os) => Connection(target, Err(Transport(os)))
  }

  /** `raw_os_error`: the OS error number behind a transport failure, if there is one. */
  function RawOsError(e: IoFault): (code: Option<int>)
    ensures code.Some? ==> e.Transport?
    ensures e.Transport? ==> code == e.osError
  {
    match e
    case Transport(os) => os
    case _ => None
  }

  /** One stage of a handshake: bytes written back to the client, the outcome, and the unconsumed input. */
  datatype Step<T> = Step(written: seq<Byte>, result: Result<T, Error>, rest: seq<Byte>)

  /** A stage that may connect upstream: a step plus the endpoint the connect primitive was asked for, if any. */
  datatype Exchange<T, E> = Exchange(written: seq<Byte>, result: Result<T, E>, rest: seq<Byte>, attempt: Option<Endpoint>)

  /** The domain check runs before any connect: bytes that are not UTF-8 never reach the connect primitive. */
  lemma NotUtf8NeverDialled(name: seq<Byte>, port: Port, dial: Connector)
    requires !Utf8.ValidUtf8(name)
    ensures ConnectToUpstream(Domain(name), port, dial) == Connection(None, Err(DomainNotUtf8))
  {
  }

  /** An empty domain name is valid UTF-8, so it reaches connect-by-name unchanged. */
  lemma EmptyDomainIsDialled(port: Port, dial: Connector)
    ensures ConnectToUpstream(Domain([]), port, dial).attempt == Some(HostPort([], port))
  {
  }
}

=== FILE: socks4.dfy ===
/**
 * The SOCKS4 and SOCKS4a handshake (`src/socks/socks4.rs`). The version
 * byte and the command have already been read with the preamble; the
 * request continues with the port, the address, a NUL-terminated user id
 * and, for SOCKS4a, a NUL-terminated domain name.
 */
module Socks4 {
  import opened Results
  import opened Wire
  import opened Socks

  /** The reply field CD. */
  datatype Status = Granted | RejectedOrFailed
  {
    function Code(): Byte {
      match this
      case Granted => 0x5A
      case RejectedOrFailed => 0x5B
    }
  }

  /** An IPv4 address as the 32-bit number `Ipv4Addr` holds, first octet most significant. */
  function Ipv4Value(dst: Octets4): nat {
    ((dst[0] as int * 0x100 + dst[1]) * 0x100 + dst[2]) * 0x100 + dst[3]
  }

  /**
   * `is_socks4a`: the address 0.0.0.x with x nonzero announces a domain
   * name. These are exactly the addresses 1 to 255 read as a number.
   */
  predicate IsSocks4a(dst: Octets4)
    ensures IsSocks4a(dst) <==> 0 < Ipv4Value(dst) < 0x100
  {
    LowAddresses(dst);
    dst[0] == 0 && dst[1] == 0 && dst[2] == 0 && dst[3] != 0
  }

  /** An address below 256 has three zero octets, and its value is its last octet. */
  lemma LowAddresses(dst: Octets4)
    ensures Ipv4Value(dst) < 0x100 <==> dst[0] == 0 && dst[1] == 0 && dst[2] == 0
    ensures dst[0] == 0 && dst[1] == 0 && dst[2] == 0 ==> Ipv4Value(dst) == dst[3]
  {
    var high: int := (dst[0] as int * 0x100 + dst[1]) * 0x100 + dst[2];
    assert Ipv4Value(dst) == high * 0x100 + dst[3];
    if high > 0 {
      assert high * 0x100 >= 0x100;
    }
    assert high == 0 <==> dst[0] == 0 && dst[1] == 0 && dst[2] == 0;
  }

  /** `Vec::pop` whose result is discarded: drop the last byte, if there is one. */
  function Pop(s: seq<Byte>): (r: seq<Byte>)
    ensures |s| > 0 ==> r + [s[|s| - 1]] == s
    ensures |s| == 0 ==> r == []
  {
    if |s| == 0 then [] else s[..|s| - 1]
  }

  /** Popping undoes pushing: whatever byte was appended last is the one removed. */
  lemma PopUndoesPush(s: seq<Byte>, b: Byte)
    ensures Pop(s + [b]) == s
  {
    assert (s + [b])[..|s|] == s;
  }

  /**
   * `read_request`: big-endian port, four address bytes, a user id read up
   * to and including its NUL and discarded, and for SOCKS4a the domain read
   * up to its NUL with the last byte dropped. Only a short port or address
   * fails; the strings end at end of stream if no NUL comes.
   */
  function ReadRequest(input: seq<Byte>, cmd: Byte): (r: Read<Request>)
    ensures r.Got? <==> |input| >= 6
    ensures r.Got? ==>
              && r.value.command == cmd
              && EncodeU16(r.value.port) == input[..2]
              && (r.value.address.Domain? <==> IsSocks4a(input[2..6]))
              && (!IsSocks4a(input[2..6]) ==> r.value.address == IPv4(input[2..6]))
              && |r.rest| <= |input| - 6 && r.rest == input[|input| - |r.rest|..]
  {
    match ReadU16(input)
    case Eof => Eof
    case Got(port, afterPort) =>
      match ReadExact(afterPort, 4)
      case Eof => Eof
      case Got(dst, afterDst) =>
        FixedFields(input, port, afterPort, dst, afterDst);
        var (address, rest) := ReadDestination(dst, afterDst);
        TailOfTail(input, 6, afterDst[..|afterDst| - |rest|], rest);
        Got(Request(cmd, address, port), rest)
  }

  /**
   * The part of `read_request` after the address: the user id up to and
   * including its NUL, then for SOCKS4a the domain up to its NUL with the
   * last byte dropped. Returns the destination and what is left unread.
   */
  function ReadDestination(dst: Octets4, afterDst: seq<Byte>): (r: (Address, seq<Byte>))
    ensures r.0.Domain? <==> IsSocks4a(dst)
    ensures !IsSocks4a(dst) ==> r.0 == IPv4(dst)
    ensures |r.1| <= |afterDst| && afterDst[..|afterDst| - |r.1|] + r.1 == afterDst
  {
    var ident := ReadUntil(afterDst, NUL);
    TailOfTail(afterDst, 0, ident.value, ident.rest);
    if IsSocks4a(dst) then
      var domain := ReadUntil(ident.rest, NUL);
      TailOfTail(afterDst, |afterDst| - |ident.rest|, domain.value, domain.rest);
      (Domain(Pop(domain.value)), domain.rest)
    else
      (IPv4(dst), ident.rest)
  }

  /** Where the port and the address sit in a request: bytes 0-1 and 2-5, with the user id from byte 6. */
  lemma FixedFields(input: seq<Byte>, port: Port, afterPort: seq<Byte>, dst: seq<Byte>, afterDst: seq<Byte>)
    requires EncodeU16(port) + afterPort == input
    requires |dst| == 4 && dst + afterDst == afterPort
    ensures |input| >= 6 && input[..2] == EncodeU16(port) && input[2..6] == dst && input[6..] == afterDst
  {
    assert input == EncodeU16(port) + (dst + afterDst);
  }

  /** The request of a SOCKS4 client after the version and command: port, address, and NUL-terminated user id. */
  function EncodeRequest(port: Port, dst: Octets4, ident: seq<Byte>): seq<Byte> {
    EncodeU16(port) + dst + ident + [NUL]
  }

  /** `write_response`: version 0, the status, and zeroed port and address. */
  function WriteResponse(s: Status): (b: seq<Byte>)
    ensures IsReply(b) && ReplyStatus(b) == Some(s.Code())
  {
    [0x00, s.Code(), 0x00, 0x00, 0x00, 0x00, 0x00, 0x00]
  }

  /** The shape every reply has: version 0, some status, zeroed port and address. */
  predicate IsReply(b: seq<Byte>) {
    |b| == 8 && b[0] == 0x00 && forall i :: 2 <= i < 8 ==> b[i] == 0x00
  }

  /** A client reading a reply: the status it carries, or nothing when it is not a reply. */
  function ReplyStatus(b: seq<Byte>): Option<Byte> {
    if IsReply(b) then Some(b[1]) else None
  }

  /**
   * `handshake`: the request is read in full, then anything but CONNECT is
   * rejected without connecting; otherwise the connect's outcome decides
   * between "granted" and "rejected or failed". Exactly one reply is written
   * once the request has been read.
   */
  function Handshake(input: seq<Byte>, cmd: Byte, dial: Connector): (x: Exchange<Upstream, Error>)
    ensures |input| < 6 ==> x == Exchange([], Err(IoError(UnexpectedEof)), [], None)
    ensures |input| >= 6 ==> IsReply(x.written) && x.rest == ReadRequest(input, cmd).rest
    ensures |input| >= 6 && cmd != COMMAND_CONNECT ==>
              x == Exchange(WriteResponse(RejectedOrFailed), Err(ProtocolError("command not supported")), x.rest, None)
    ensures x.result.Ok? <==> x.written == WriteResponse(Granted)
    ensures x.result.Ok? ==> x.attempt == Some(x.result.value.peer)
    ensures x.attempt.Some? ==> cmd == COMMAND_CONNECT
    ensures |input| >= 6 && cmd == COMMAND_CONNECT ==>
              var request := ReadRequest(input, cmd).value;
              var c := ConnectToUpstream(request.address, request.port, dial);
              && x.attempt == c.attempt
              && (c.result.Ok? ==> x.result == Ok(c.result.value))
              && (c.result.Err? ==> x.written == WriteResponse(RejectedOrFailed) && x.result == Err(IoError(c.result.error)))
  {
    match ReadRequest(input, cmd)
    case Eof => Exchange([], Err(IoError(UnexpectedEof)), [], None)
    case Got(request, rest) =>
      if request.command != COMMAND_CONNECT then
        Exchange(WriteResponse(RejectedOrFailed), Err(ProtocolError("command not supported")), rest, None)
      else
        var c := ConnectToUpstream(request.address, request.port, dial);
        match c.result
        case Err(e) => Exchange(WriteResponse(RejectedOrFailed), Err(IoError(e)), rest, c.attempt)
        case Ok(upstream) => Exchange(WriteResponse(Granted), Ok(upstream), rest, c.attempt)
  }
}

=== FILE: socks4_properties.dfy ===
/**
 * Properties of the SOCKS4/4a handshake stated over what a client sends,
 * built with `Socks4.EncodeRequest`.
 */
module Socks4Properties {
  import opened Results
  import opened Wire
  import opened Socks
  import opened Socks4
  import Utf8

  /** The address 0.0.0.0 does not announce a domain name: its last byte is zero. */
  lemma ZeroAddressIsLiteral()
    ensures !IsSocks4a([0, 0, 0, 0])
  {
  }

  /**
   * After the port, the address and a NUL-terminated user id, a plain
   * request is complete, and a SOCKS4a request reads its domain from what
   * follows.
   */
  lemma FixedFieldsRoundTrip(cmd: Byte, port: Port, dst: Octets4, ident: seq<Byte>, tail: seq<Byte>)
    requires NUL !in ident
    ensures var r := ReadRequest(EncodeRequest(port, dst, ident) + tail, cmd);
            var domain := ReadUntil(tail, NUL);
            if IsSocks4a(dst) then r == Got(Request(cmd, Domain(Pop(domain.value)), port), domain.rest)
            else r == Got(Request(cmd, IPv4(dst), port), tail)
  {
    PortFirst(port, dst, ident, tail);
    ReadUntilTerminated(ident, NUL, tail);
    AfterPort(EncodeRequest(port, dst, ident) + tail, cmd, port, dst, ident + [NUL] + tail);
  }

  /** The port is read first, and the address, the user id and its NUL follow it. */
  lemma PortFirst(port: Port, dst: Octets4, ident: seq<Byte>, tail: seq<Byte>)
    ensures ReadU16(EncodeRequest(port, dst, ident) + tail) == Got(port, dst + (ident + [NUL] + tail))
  {
    assert EncodeRequest(port, dst, ident) + tail == EncodeU16(port) + (dst + (ident + [NUL] + tail));
    ReadU16Encoded(port, dst + (ident + [NUL] + tail));
  }

  /** `read_request` once the port has been read: the address is the next four bytes and the strings follow. */
  lemma AfterPort(input: seq<Byte>, cmd: Byte, port: Port, dst: Octets4, afterDst: seq<Byte>)
    requires ReadU16(input) == Got(port, dst + afterDst)
    ensures var ident := ReadUntil(afterDst, NUL);
            var domain := ReadUntil(ident.rest, NUL);
            ReadRequest(input, cmd) ==
              if IsSocks4a(dst) then Got(Request(cmd, Domain(Pop(domain.value)), port), domain.rest)
              else Got(Request(cmd, IPv4(dst), port), ident.rest)
  {
    var afterPort := dst + afterDst;
    assert afterPort[..4] == dst && afterPort[4..] == afterDst;
    var fields := ReadExact(afterPort, 4);
    assert fields.Got? && fields.value == dst && fields.rest == afterDst;
  }

  /**
   * A plain SOCKS4 request reads back as the literal IPv4 address and the
   * big-endian port it carries, and its user id is consumed up to and
   * including the NUL, leaving what follows.
   */
  lemma LiteralRequestRoundTrip(cmd: Byte, port: Port, dst: Octets4, ident: seq<Byte>, rest: seq<Byte>)
    requires !IsSocks4a(dst) && NUL !in ident
    ensures ReadRequest(EncodeRequest(port, dst, ident) + rest, cmd) == Got(Request(cmd, IPv4(dst), port), rest)
  {
    FixedFieldsRoundTrip(cmd, port, dst, ident, rest);
  }

  /**
   * A SOCKS4a request (address 0.0.0.x, x nonzero) reads back as the domain
   * that follows the user id, without its NUL; the literal address is not
   * used.
   */
  lemma DomainRequestRoundTrip(cmd: Byte, port: Port, dst: Octets4, ident: seq<Byte>, domain: seq<Byte>, rest: seq<Byte>)
    requires IsSocks4a(dst) && NUL !in ident && NUL !in domain
    ensures ReadRequest(EncodeRequest(port, dst, ident) + (domain + [NUL] + rest), cmd)
         == Got(Request(cmd, Domain(domain), port), rest)
  {
    FixedFieldsRoundTrip(cmd, port, dst, ident, domain + [NUL] + rest);
    ReadUntilTerminated(domain, NUL, rest);
    assert Pop(domain + [NUL]) == domain;
  }

  /**
   * When the stream ends before the domain's NUL, the last byte dropped is a
   * byte of the domain itself: the domain comes back one byte short.
   */
  lemma DomainAtEndOfStreamLosesLastByte(cmd: Byte, port: Port, dst: Octets4, ident: seq<Byte>, domain: seq<Byte>)
    requires IsSocks4a(dst) && NUL !in ident && NUL !in domain && |domain| > 0
    ensures ReadRequest(EncodeRequest(port, dst, ident) + domain, cmd)
         == Got(Request(cmd, Domain(domain[..|domain| - 1]), port), [])
  {
    FixedFieldsRoundTrip(cmd, port, dst, ident, domain);
    ReadUntilUnterminated(domain, NUL);
  }

  /**
   * When the stream ends inside the user id of a SOCKS4a request, the
   * domain read finds nothing: the domain is empty, and the request is
   * still complete.
   */
  lemma UserIdAtEndOfStream(cmd: Byte, port: Port, dst: Octets4, ident: seq<Byte>)
    requires IsSocks4a(dst) && NUL !in ident
    ensures ReadRequest(EncodeU16(port) + dst + ident, cmd) == Got(Request(cmd, Domain([]), port), [])
  {
    var input := EncodeU16(port) + dst + ident;
    assert input == EncodeU16(port) + (dst + ident);
    ReadU16Encoded(port, dst + ident);
    ReadUntilUnterminated(ident, NUL);
    ReadUntilUnterminated([], NUL);
    AfterPort(input, cmd, port, dst, ident);
  }

  /**
   * The request, user id and domain included, is read before the command is
   * looked at: what is left for the relay does not depend on the command.
   */
  lemma CommandCheckedAfterRequest(input: seq<Byte>, cmd: Byte, dial: Connector)
    ensures Handshake(input, cmd, dial).rest == Handshake(input, COMMAND_CONNECT, dial).rest
  {
  }

  /**
   * A CONNECT to a literal address is attempted at exactly that address and
   * port; success is answered with 0x5A, failure with 0x5B and the
   * connect's error.
   */
  lemma LiteralConnectOutcome(port: Port, dst: Octets4, ident: seq<Byte>, rest: seq<Byte>, dial: Connector)
    requires !IsSocks4a(dst) && NUL !in ident
    ensures var x := Handshake(EncodeRequest(port, dst, ident) + rest, COMMAND_CONNECT, dial);
            match dial(SocketV4(dst, port))
            case Connected =>
              x == Exchange([0x00, 0x5A, 0x00, 0x00, 0x00, 0x00, 0x00, 0x00], Ok(Upstream(SocketV4(dst, port))),
                            rest, Some(SocketV4(dst, port)))
            case Failed(os) =>
              x == Exchange([0x00, 0x5B, 0x00, 0x00, 0x00, 0x00, 0x00, 0x00], Err(IoError(Transport(os))),
                            rest, Some(SocketV4(dst, port)))
  {
    LiteralRequestRoundTrip(COMMAND_CONNECT, port, dst, ident, rest);
  }

  /**
   * A SOCKS4a CONNECT is connected by name to the domain after the user id,
   * with the requested port; the literal 0.0.0.x is never used. A domain
   * that is not UTF-8 is connected nowhere and answered with 0x5B.
   */
  lemma DomainConnectOutcome(port: Port, dst: Octets4, ident: seq<Byte>, domain: seq<Byte>, rest: seq<Byte>,
                             dial: Connector)
    requires IsSocks4a(dst) && NUL !in ident && NUL !in domain
    ensures var x := Handshake(EncodeRequest(port, dst, ident) + (domain + [NUL] + rest), COMMAND_CONNECT, dial);
            if !Utf8.ValidUtf8(domain) then
              x == Exchange([0x00, 0x5B, 0x00, 0x00, 0x00, 0x00, 0x00, 0x00], Err(IoError(DomainNotUtf8)), rest, None)
            else
              match dial(HostPort(domain, port))
              case Connected =>
                x == Exchange([0x00, 0x5A, 0x00, 0x00, 0x00, 0x00, 0x00, 0x00], Ok(Upstream(HostPort(domain, port))),
                              rest, Some(HostPort(domain, port)))
              case Failed(os) =>
                x == Exchange([0x00, 0x5B, 0x00, 0x00, 0x00, 0x00, 0x00, 0x00], Err(IoError(Transport(os))),
                              rest, Some(HostPort(domain, port)))
  {
    var input := EncodeRequest(port, dst, ident) + (domain + [NUL] + rest);
    DomainRequestRoundTrip(COMMAND_CONNECT, port, dst, ident, domain, rest);
    ParsedConnect(input, Request(COMMAND_CONNECT, Domain(domain), port), rest, dial);
  }

  /** Once a CONNECT request is parsed, the handshake is decided by the connect to the endpoint it names. */
  lemma ParsedConnect(input: seq<Byte>, request: Request, rest: seq<Byte>, dial: Connector)
    requires ReadRequest(input, COMMAND_CONNECT) == Got(request, rest)
    ensures var c := ConnectToUpstream(request.address, request.port, dial);
            var x := Handshake(input, COMMAND_CONNECT, dial);
            match c.result
            case Ok(upstream) => x == Exchange(WriteResponse(Granted), Ok(upstream), rest, c.attempt)
            case Err(e) => x == Exchange(WriteResponse(RejectedOrFailed), Err(IoError(e)), rest, c.attempt)
  {
  }
}

=== FILE: socks5.dfy ===
/**
 * The SOCKS5 handshake (`src/socks/socks5.rs`): method negotiation
 * (section 3 of RFC 1928), the username/password sub-negotiation (section 2
 * of RFC 1929), the CONNECT request (sections 4 and 5 of RFC 1928) and the
 * reply (section 6 of RFC 1928). Every function reads from the front of the
 * client's byte stream and reports what it wrote back, its outcome and the
 * input it left unconsumed.
 */
module Socks5 {
  import opened Results
  import opened Wire
  import opened Socks

  /** The reply field REP. */
  datatype Status =
    | Granted
    | GeneralFailure
    | NetworkUnreachable
    | HostUnreachable
    | ConnectionRefused
    | CommandNotSupported
    | AddressTypeNotSupported
  {
    function Code(): Byte {
      match this
      case Granted => 0x00
      case GeneralFailure => 0x01
      case NetworkUnreachable => 0x03
      case HostUnreachable => 0x04
      case ConnectionRefused => 0x05
      case CommandNotSupported => 0x07
      case AddressTypeNotSupported => 0x08
    }
  }

  /** What the client authenticates with. */
  datatype Auth = Anonymous | Credentials(username: seq<Byte>, password: seq<Byte>)

  /** The decision of the authentication policy. */
  datatype AuthResult = Accept | Deny

  /** The decision point that accepts or denies a client. */
  type AuthPolicy = Auth -> AuthResult

  /** The method field of the server's method-selection message. */
  datatype AuthMethod = NoAuthentication | UsernamePassword | NoAcceptableMethods
  {
    function Code(): Byte {
      match this
      case NoAuthentication => 0x00
      case UsernamePassword => 0x02
      case NoAcceptableMethods => 0xFF
    }
  }

  /** The status field of the username/password reply. */
  datatype AuthStatus = Success | Failure
  {
    function Code(): Byte {
      match this
      case Success => 0x00
      case Failure => 0xFF
    }
  }

  /** Address types (ATYP). */
  const ATYP_IPV4: Byte := 0x01
  const ATYP_DOMAIN: Byte := 0x03
  const ATYP_IPV6: Byte := 0x04

  /** Linux error numbers the reply distinguishes. */
  const ENETUNREACH := 101
  const ECONNREFUSED := 111
  const EHOSTUNREACH := 113

  /** A client reading the method-selection message: the method the server chose, if the message is one. */
  function ChosenMethod(b: seq<Byte>): Option<AuthMethod> {
    if |b| != 2 || b[0] != SOCKS5 then None
    else if b[1] == 0x00 then Some(NoAuthentication)
    else if b[1] == 0x02 then Some(UsernamePassword)
    else if b[1] == 0xFF then Some(NoAcceptableMethods)
    else None
  }

  /**
   * A client reading the username/password reply (section 2 of RFC 1929):
   * status 0 is success and any other status is failure.
   */
  function AuthVerdict(b: seq<Byte>): Option<AuthStatus> {
    if |b| != 2 || b[0] != 0x01 then None
    else if b[1] == 0x00 then Some(Success)
    else Some(Failure)
  }

  /** The method-selection message: version 5 and the chosen method. */
  function WriteServerChoice(m: AuthMethod): (b: seq<Byte>)
    ensures ChosenMethod(b) == Some(m)
  {
    [SOCKS5, m.Code()]
  }

  /** The username/password reply: sub-negotiation version 1 and the status. */
  function WriteAuthResponse(s: AuthStatus): (b: seq<Byte>)
    ensures AuthVerdict(b) == Some(s)
  {
    [0x01, s.Code()]
  }

  /** The reply to a request; the bound address is always the stand-in 0.0.0.0:0. */
  function WriteResponse(s: Status): (b: seq<Byte>)
    ensures IsReply(b) && ReplyStatus(b) == Some(s.Code())
  {
    [SOCKS5, s.Code(), 0x00, ATYP_IPV4, 0x00, 0x00, 0x00, 0x00, 0x00, 0x00]
  }

  /** The shape every reply has: version 5, some status, a zero reserved byte, and IPv4 0.0.0.0:0. */
  predicate IsReply(b: seq<Byte>) {
    && |b| == 10 && b[0] == SOCKS5 && b[2] == 0x00 && b[3] == ATYP_IPV4
    && forall i :: 4 <= i < 10 ==> b[i] == 0x00
  }

  /** A client reading a reply: the status it carries, or nothing when it is not a reply. */
  function ReplyStatus(b: seq<Byte>): Option<Byte> {
    if IsReply(b) then Some(b[1]) else None
  }

  /** The method list the client offers: `n_auth` bytes, with no check on their values. */
  function ReadAvailableMethods(input: seq<Byte>, nAuth: Byte): (r: Read<seq<Byte>>)
    ensures r.Got? <==> nAuth <= |input|
    ensures r.Got? ==> |r.value| == nAuth && r.value + r.rest == input && (forall m: AuthMethod :: m.Code() in r.value <==> Offers(input, nAuth, m))
  {
    ReadExact(input, nAuth)
  }

  /** The client offers `m` among its first `nAuth` bytes. */
  predicate Offers(input: seq<Byte>, nAuth: Byte, m: AuthMethod) {
    nAuth <= |input| && m.Code() in input[..nAuth]
  }

  /** A field of at most 255 bytes preceded by its length, as each credential is sent. */
  function EncodeLengthPrefixed(field: seq<Byte>): seq<Byte>
    requires |field| < 0x100
  {
    [|field|] + field
  }

  /** The username/password request of RFC 1929 as a client sends it. */
  function EncodeCredentials(version: Byte, username: seq<Byte>, password: seq<Byte>): seq<Byte>
    requires |username| < 0x100 && |password| < 0x100
  {
    [version] + EncodeLengthPrefixed(username) + EncodeLengthPrefixed(password)
  }

  /** A one-byte length and then that many bytes. */
  function ReadLengthPrefixed(input: seq<Byte>): (r: Read<seq<Byte>>)
    ensures r.Got? ==> |r.value| < 0x100 && EncodeLengthPrefixed(r.value) + r.rest == input
  {
    match ReadU8(input)
    case Eof => Eof
    case Got(len, afterLen) =>
      match ReadExact(afterLen, len)
      case Eof => Eof
      case Got(field, rest) =>
        assert input == [len] + (field + rest);
        Got(field, rest)
  }

  /**
   * `read_username_and_password`: a version byte that is ignored, then a
   * length-prefixed username and a length-prefixed password.
   */
  function ReadUsernameAndPassword(input: seq<Byte>): (r: Read<(seq<Byte>, seq<Byte>)>)
    ensures r.Got? ==>
              && |input| > 0 && |r.value.0| < 0x100 && |r.value.1| < 0x100
              && EncodeCredentials(input[0], r.value.0, r.value.1) + r.rest == input
  {
    match ReadU8(input)
    case Eof => Eof
    case Got(version, afterVersion) =>
      match ReadLengthPrefixed(afterVersion)
      case Eof => Eof
      case Got(username, afterUsername) =>
        match ReadLengthPrefixed(afterUsername)
        case Eof => Eof
        case Got(password, rest) =>
          CredentialsLayout(input, version, afterVersion, username, afterUsername, password, rest);
          Got((username, password), rest)
  }

  /** Three reads in a row occupy exactly the bytes of the credential record they return. */
  lemma CredentialsLayout(input: seq<Byte>, version: Byte, afterVersion: seq<Byte>, username: seq<Byte>,
                          afterUsername: seq<Byte>, password: seq<Byte>, rest: seq<Byte>)
    requires |username| < 0x100 && |password| < 0x100
    requires [version] + afterVersion == input
    requires EncodeLengthPrefixed(username) + afterUsername == afterVersion
    requires EncodeLengthPrefixed(password) + rest == afterUsername
    ensures |input| > 0 && input[0] == version
    ensures EncodeCredentials(version, username, password) + rest == input
  {
  }

  /**
   * `authenticate_client`: username/password is chosen whenever it is
   * offered; otherwise "no authentication" when it is offered and the policy
   * accepts it; otherwise no acceptable method.
   */
  function AuthenticateClient(input: seq<Byte>, nAuth: Byte, policy: AuthPolicy): (s: Step<()>)
    ensures nAuth > |input| ==> s == Step([], Err(IoError(UnexpectedEof)), [])
    ensures Offers(input, nAuth, UsernamePassword) ==>
              |s.written| >= 2 && s.written[..2] == WriteServerChoice(UsernamePassword)
    ensures Offers(input, nAuth, UsernamePassword) && ReadUsernameAndPassword(input[nAuth..]).Eof? ==>
              s == Step(WriteServerChoice(UsernamePassword), Err(IoError(UnexpectedEof)), [])
    ensures Offers(input, nAuth, UsernamePassword) && ReadUsernameAndPassword(input[nAuth..]).Got? ==>
              var record := ReadUsernameAndPassword(input[nAuth..]);
              && s.rest == record.rest
              && (s.result.Ok? <==> policy(Credentials(record.value.0, record.value.1)) == Accept)
              && s.written == WriteServerChoice(UsernamePassword) + WriteAuthResponse(if s.result.Ok? then Success else Failure)
    ensures !Offers(input, nAuth, UsernamePassword) && Offers(input, nAuth, NoAuthentication) ==>
              && s.rest == input[nAuth..]
              && (s.result.Ok? <==> policy(Anonymous) == Accept)
              && s.written == WriteServerChoice(if s.result.Ok? then NoAuthentication else NoAcceptableMethods)
    ensures nAuth <= |input| && !Offers(input, nAuth, UsernamePassword) && !Offers(input, nAuth, NoAuthentication) ==>
              s == Step(WriteServerChoice(NoAcceptableMethods), Err(ProtocolError("no acceptable auth methods")), input[nAuth..])
    ensures s.result.Ok? ==>
              || s.written == WriteServerChoice(NoAuthentication)
              || s.written == WriteServerChoice(UsernamePassword) + WriteAuthResponse(Success)
    ensures s.result.Err? ==>
              s.result.error in {IoError(UnexpectedEof), ProtocolError("authentication failure"),
                                 ProtocolError("no acceptable auth methods")}
  {
    match ReadAvailableMethods(input, nAuth)
    case Eof => Step([], Err(IoError(UnexpectedEof)), [])
    case Got(methods, rest) =>
      if UsernamePassword.Code() in methods then
        var choice := WriteServerChoice(UsernamePassword);
        match ReadUsernameAndPassword(rest)
        case Eof => Step(choice, Err(IoError(UnexpectedEof)), [])
        case Got((username, password), rest') =>
          match policy(Credentials(username, password))
          case Deny => Step(choice + WriteAuthResponse(Failure), Err(ProtocolError("authentication failure")), rest')
          case Accept => Step(choice + WriteAuthResponse(Success), Ok(()), rest')
      else if NoAuthentication.Code() in methods then
        match policy(Anonymous)
        case Deny => Step(WriteServerChoice(NoAcceptableMethods), Err(ProtocolError("no acceptable auth methods")), rest)
        case Accept => Step(WriteServerChoice(NoAuthentication), Ok(()), rest)
      else
        Step(WriteServerChoice(NoAcceptableMethods), Err(ProtocolError("no acceptable auth methods")), rest)
  }

  /** A request's address can be written on the wire: a domain name fits its one-byte length. */
  predicate Encodable(req: Request) {
    req.address.Domain? ==> |req.address.name| < 0x100
  }

  /** The ATYP byte of an address. */
  function AddressType(a: Address): Byte {
    match a
    case IPv4(_) => ATYP_IPV4
    case Domain(_) => ATYP_DOMAIN
    case IPv6(_) => ATYP_IPV6
  }

  /** The DST.ADDR field of an address. */
  function EncodeAddress(a: Address): seq<Byte>
    requires a.Domain? ==> |a.name| < 0x100
  {
    match a
    case IPv4(ip) => ip
    case IPv6(ip) => ip
    case Domain(name) => [|name|] + name
  }

  /** The CONNECT request of RFC 1928 as a client sends it; `reserved` is the RSV byte. */
  function EncodeRequest(req: Request, reserved: Byte): seq<Byte>
    requires Encodable(req)
  {
    [SOCKS5, req.command, reserved, AddressType(req.address)] + EncodeAddress(req.address) + EncodeU16(req.port)
  }

  /** DST.ADDR for a supported address type. */
  function ReadAddress(atyp: Byte, input: seq<Byte>): (r: Read<Address>)
    requires atyp in {ATYP_IPV4, ATYP_DOMAIN, ATYP_IPV6}
    ensures r.Got? ==>
              && AddressType(r.value) == atyp
              && (r.value.Domain? ==> |r.value.name| < 0x100)
              && EncodeAddress(r.value) + r.rest == input
  {
    if atyp == ATYP_IPV4 then
      match ReadExact(input, 4)
      case Eof => Eof
      case Got(ip, rest) => Got(IPv4(ip), rest)
    else if atyp == ATYP_IPV6 then
      match ReadExact(input, 16)
      case Eof => Eof
      case Got(ip, rest) => Got(IPv6(ip), rest)
    else
      match ReadU8(input)
      case Eof => Eof
      case Got(len, afterLen) =>
        match ReadExact(afterLen, len)
        case Eof => Eof
        case Got(name, rest) =>
          assert input == [len] + (name + rest);
          Got(Domain(name), rest)
  }

  /**
   * `read_request`: the four header bytes, the address for its type and the
   * big-endian port. A wrong version fails before anything is written; an
   * unknown address type is answered with status 0x08 before the port is
   * read. The reserved byte is never looked at.
   */
  function ReadRequest(input: seq<Byte>): (s: Step<Request>)
    ensures |input| < 4 ==> s == Step([], Err(IoError(UnexpectedEof)), [])
    ensures |input| >= 4 && input[0] != SOCKS5 ==>
              s == Step([], Err(ProtocolError("request is not SOCKS5")), input[4..])
    ensures |input| >= 4 && input[0] == SOCKS5 && input[3] !in {ATYP_IPV4, ATYP_DOMAIN, ATYP_IPV6} ==>
              s == Step(WriteResponse(AddressTypeNotSupported), Err(ProtocolError("unknown address type")), input[4..])
    ensures |input| >= 4 && input[0] == SOCKS5 && input[3] in {ATYP_IPV4, ATYP_DOMAIN, ATYP_IPV6} && s.result.Err? ==>
              s == Step([], Err(IoError(UnexpectedEof)), [])
    ensures s.written == [] || s.written == WriteResponse(AddressTypeNotSupported)
    ensures s.result.Ok? ==>
              && s.written == []
              && Encodable(s.result.value)
              && EncodeRequest(s.result.value, input[2]) + s.rest == input
  {
    match ReadExact(input, 4)
    case Eof => Step([], Err(IoError(UnexpectedEof)), [])
    case Got(head, rest) =>
      if head[0] != SOCKS5 then
        Step([], Err(ProtocolError("request is not SOCKS5")), rest)
      else if head[3] !in {ATYP_IPV4, ATYP_DOMAIN, ATYP_IPV6} then
        Step(WriteResponse(AddressTypeNotSupported), Err(ProtocolError("unknown address type")), rest)
      else
        match ReadAddress(head[3], rest)
        case Eof => Step([], Err(IoError(UnexpectedEof)), [])
        case Got(address, afterAddress) =>
          match ReadU16(afterAddress)
          case Eof => Step([], Err(IoError(UnexpectedEof)), [])
          case Got(port, rest') =>
            var req := Request(head[1], address, port);
            RequestLayout(input, head, rest, req, rest');
            Step([], Ok(req), rest')
  }

  /** A request read field by field occupies exactly the bytes of its encoding. */
  lemma RequestLayout(input: seq<Byte>, head: seq<Byte>, afterHead: seq<Byte>, req: Request, rest: seq<Byte>)
    requires Encodable(req) && |head| == 4 && head + afterHead == input
    requires head[0] == SOCKS5 && head[1] == req.command && head[3] == AddressType(req.address)
    requires afterHead == EncodeAddress(req.address) + (EncodeU16(req.port) + rest)
    ensures EncodeRequest(req, input[2]) + rest == input
  {
    assert head == [SOCKS5, req.command, input[2], AddressType(req.address)];
  }

  /** `do_authenticate`, the built-in policy: no authentication is accepted, credentials are always denied. */
  function DoAuthenticate(auth: Auth): (r: AuthResult)
    ensures r == Accept <==> auth == Anonymous
  {
    match auth
    case Anonymous => Accept
    case Credentials(_, _) => Deny
  }

  /**
   * `io_error_to_status`: the three OS error numbers that have a reply code
   * of their own are mapped to it; everything else, including a failure
   * without an OS error number, is a general failure.
   */
  function IoErrorToStatus(e: IoFault): (s: Status)
    ensures s == NetworkUnreachable <==> RawOsError(e) == Some(ENETUNREACH)
    ensures s == ConnectionRefused <==> RawOsError(e) == Some(ECONNREFUSED)
    ensures s == HostUnreachable <==> RawOsError(e) == Some(EHOSTUNREACH)
    ensures s !in {Granted, CommandNotSupported, AddressTypeNotSupported}
  {
    var code := match RawOsError(e) case Some(c) => c case None => 0;
    if code == ENETUNREACH then NetworkUnreachable
    else if code == ECONNREFUSED then ConnectionRefused
    else if code == EHOSTUNREACH then HostUnreachable
    else GeneralFailure
  }

  /**
   * The part of `handshake` after authentication: read the request, refuse
   * anything but CONNECT, connect upstream, and answer with exactly one reply
   * unless the request could not be read.
   */
  function ServeRequest(input: seq<Byte>, dial: Connector): (x: Exchange<(Request, Upstream), Error>)
    ensures x.written == [] || IsReply(x.written)
    ensures x.result.Ok? ==>
              && x.written == WriteResponse(Granted)
              && x.result.value.0.command == COMMAND_CONNECT
              && x.attempt == Some(x.result.value.1.peer)
              && x.attempt == ConnectToUpstream(x.result.value.0.address, x.result.value.0.port, dial).attempt
    ensures x.attempt.Some? ==> IsReply(x.written)
    ensures ReadRequest(input).result.Err? ==>
              x == Exchange(ReadRequest(input).written, Err(ReadRequest(input).result.error), ReadRequest(input).rest, None)
    ensures ReadRequest(input).result.Ok? ==>
              var request := ReadRequest(input).result.value;
              var c := ConnectToUpstream(request.address, request.port, dial);
              && x.rest == ReadRequest(input).rest
              && (request.command != COMMAND_CONNECT ==>
                    x == Exchange(WriteResponse(CommandNotSupported), Err(ProtocolError("command not supported")), x.rest, None))
              && (request.command == COMMAND_CONNECT ==>
                    && x.attempt == c.attempt
                    && (c.result.Ok? ==> x.written == WriteResponse(Granted) && x.result == Ok((request, c.result.value)))
                    && (c.result.Err? ==> x.written == WriteResponse(IoErrorToStatus(c.result.error)) && x.result == Err(IoError(c.result.error))))
  {
    var parsed := ReadRequest(input);
    match parsed.result
    case Err(e) =>
      Exchange(parsed.written, Err(e), parsed.rest, None)
    case Ok(request) =>
      if request.command != COMMAND_CONNECT then
        Exchange(WriteResponse(CommandNotSupported), Err(ProtocolError("command not supported")), parsed.rest, None)
      else
        var c := ConnectToUpstream(request.address, request.port, dial);
        match c.result
        case Err(e) =>
          Exchange(WriteResponse(IoErrorToStatus(e)), Err(IoError(e)), parsed.rest, c.attempt)
        case Ok(upstream) =>
          Exchange(WriteResponse(Granted), Ok((request, upstream)), parsed.rest, c.attempt)
  }

  /**
   * `handshake`: authenticate the client, then serve its request. Nothing
   * is connected unless authentication succeeded, and at most one reply
   * follows the negotiation bytes.
   */
  function Handshake(input: seq<Byte>, nAuth: Byte, policy: AuthPolicy, dial: Connector): (x: Exchange<(Request, Upstream), Error>)
    ensures var auth := AuthenticateClient(input, nAuth, policy);
            && (x.attempt.Some? ==> auth.result.Ok?)
            && |x.written| >= |auth.written| && x.written[..|auth.written|] == auth.written
            && (x.written[|auth.written|..] == [] || IsReply(x.written[|auth.written|..]))
            && (x.result.Ok? ==> x.written[|auth.written|..] == WriteResponse(Granted))
    ensures var auth := AuthenticateClient(input, nAuth, policy);
            auth.result.Err? ==> x == Exchange(auth.written, Err(auth.result.error), auth.rest, None)
    ensures var auth := AuthenticateClient(input, nAuth, policy);
            var served := ServeRequest(auth.rest, dial);
            auth.result.Ok? ==> x == Exchange(auth.written + served.written, served.result, served.rest, served.attempt)
  {
    AfterAuthentication(AuthenticateClient(input, nAuth, policy), dial)
  }

  /**
   * What `handshake` does once `authenticate_client` has returned: stop
   * with its error, or read and serve the request from where it stopped.
   */
  function AfterAuthentication(auth: Step<()>, dial: Connector): (x: Exchange<(Request, Upstream), Error>)
    ensures && (x.attempt.Some? ==> auth.result.Ok?)
            && |x.written| >= |auth.written| && x.written[..|auth.written|] == auth.written
            && (x.written[|auth.written|..] == [] || IsReply(x.written[|auth.written|..]))
            && (x.result.Ok? ==> x.written[|auth.written|..] == WriteResponse(Granted))
    ensures auth.result.Err? ==> x == Exchange(auth.written, Err(auth.result.error), auth.rest, None)
    ensures var served := ServeRequest(auth.rest, dial);
            auth.result.Ok? ==> x == Exchange(auth.written + served.written, served.result, served.rest, served.attempt)
  {
    if auth.result.Err? then
      Appended(auth.written, []);
      Exchange(auth.written, Err(auth.result.error), auth.rest, None)
    else
      var served := ServeRequest(auth.rest, dial);
      Appended(auth.written, served.written);
      Exchange(auth.written + served.written, served.result, served.rest, served.attempt)
  }

  /** Bytes written after earlier ones leave the earlier ones as the prefix. */
  lemma Appended(before: seq<Byte>, after: seq<Byte>)
    ensures (before + after)[..|before|] == before && (before + after)[|before|..] == after
  {
  }
}

=== FILE: socks5_properties.dfy ===
/**
 * Properties of the SOCKS5 handshake stated over what a client sends:
 * method offers, credential records and requests built by the client-side
 * encoders of `Socks5`.
 */
module Socks5Properties {
  import opened Results
  import opened Wire
  import opened Socks
  import opened Socks5

  /** The credential record is consumed exactly: version, length, username, length, password; the version is ignored. */
  lemma CredentialsRoundTrip(version: Byte, username: seq<Byte>, password: seq<Byte>, rest: seq<Byte>)
    requires |username| < 0x100 && |password| < 0x100
    ensures ReadUsernameAndPassword(EncodeCredentials(version, username, password) + rest) == Got((username, password), rest)
  {
    var afterUsername := EncodeLengthPrefixed(password) + rest;
    var afterVersion := EncodeLengthPrefixed(username) + afterUsername;
    assert EncodeCredentials(version, username, password) + rest == [version] + afterVersion;
    LengthPrefixedRoundTrip(username, afterUsername);
    LengthPrefixedRoundTrip(password, rest);
  }

  /** A length-prefixed field reads back as itself and leaves what follows. */
  lemma LengthPrefixedRoundTrip(field: seq<Byte>, rest: seq<Byte>)
    requires |field| < 0x100
    ensures ReadLengthPrefixed(EncodeLengthPrefixed(field) + rest) == Got(field, rest)
  {
    var input := EncodeLengthPrefixed(field) + rest;
    assert input[1..] == field + rest;
    assert input[1..][..|field|] == field && input[1..][|field|..] == rest;
  }

  /**
   * Whenever username/password is among the offered methods, in any position
   * and next to any other methods, it is chosen, the credentials are read,
   * and the policy's verdict on exactly those credentials decides.
   */
  lemma UsernamePasswordChosen(methods: seq<Byte>, version: Byte, username: seq<Byte>, password: seq<Byte>,
                               rest: seq<Byte>, policy: AuthPolicy)
    requires |methods| < 0x100 && UsernamePassword.Code() in methods
    requires |username| < 0x100 && |password| < 0x100
    ensures var s := AuthenticateClient(methods + EncodeCredentials(version, username, password) + rest, |methods|, policy);
            if policy(Credentials(username, password)) == Accept then
              s == Step(WriteServerChoice(UsernamePassword) + WriteAuthResponse(Success), Ok(()), rest)
            else
              s == Step(WriteServerChoice(UsernamePassword) + WriteAuthResponse(Failure),
                        Err(ProtocolError("authentication failure")), rest)
  {
    var record := EncodeCredentials(version, username, password);
    var input := methods + record + rest;
    assert input[..|methods|] == methods;
    assert input[|methods|..] == record + rest;
    CredentialsRoundTrip(version, username, password, rest);
  }

  /**
   * Under the built-in policy, offering username/password always ends in
   * `05 02`, then `01 FF` and an authentication failure: no request is read
   * and nothing is connected.
   */
  lemma BuiltInPolicyRefusesCredentials(methods: seq<Byte>, version: Byte, username: seq<Byte>, password: seq<Byte>,
                                        rest: seq<Byte>, dial: Connector)
    requires |methods| < 0x100 && UsernamePassword.Code() in methods
    requires |username| < 0x100 && |password| < 0x100
    ensures Handshake(methods + EncodeCredentials(version, username, password) + rest, |methods|, DoAuthenticate, dial)
         == Exchange([0x05, 0x02, 0x01, 0xFF], Err(ProtocolError("authentication failure")), rest, None)
  {
    UsernamePasswordChosen(methods, version, username, password, rest, DoAuthenticate);
  }

  /**
   * When "no authentication" is offered and username/password is not, the
   * policy is asked about an anonymous client: on accept the server writes
   * `05 00` and goes on, on deny it writes `05 FF` and fails.
   */
  lemma NoAuthenticationChosen(methods: seq<Byte>, rest: seq<Byte>, policy: AuthPolicy)
    requires |methods| < 0x100
    requires NoAuthentication.Code() in methods && UsernamePassword.Code() !in methods
    ensures var s := AuthenticateClient(methods + rest, |methods|, policy);
            if policy(Anonymous) == Accept then
              s == Step([0x05, 0x00], Ok(()), rest)
            else
              s == Step([0x05, 0xFF], Err(ProtocolError("no acceptable auth methods")), rest)
  {
    var input := methods + rest;
    assert input[..|methods|] == methods;
    assert input[|methods|..] == rest;
  }

  /**
   * When neither method is offered, including when no method is offered at
   * all, the server writes `05 FF` and fails without reading further.
   */
  lemma NoAcceptableMethod(methods: seq<Byte>, rest: seq<Byte>, policy: AuthPolicy, dial: Connector)
    requires |methods| < 0x100
    requires NoAuthentication.Code() !in methods && UsernamePassword.Code() !in methods
    ensures Handshake(methods + rest, |methods|, policy, dial)
         == Exchange([0x05, 0xFF], Err(ProtocolError("no acceptable auth methods")), rest, None)
  {
    var input := methods + rest;
    assert input[..|methods|] == methods;
    assert input[|methods|..] == rest;
  }

  /**
   * Reading an encoded request gives the request back and consumes exactly
   * its bytes: 4 address bytes for IPv4, 16 for IPv6, a length byte and that
   * many bytes for a domain (an empty one included), then the big-endian
   * port. Whatever the reserved byte holds is ignored.
   */
  lemma RequestRoundTrip(req: Request, reserved: Byte, rest: seq<Byte>)
    requires Encodable(req)
    ensures ReadRequest(EncodeRequest(req, reserved) + rest) == Step([], Ok(req), rest)
  {
    var head := [SOCKS5, req.command, reserved, AddressType(req.address)];
    var input := EncodeRequest(req, reserved) + rest;
    assert input == head + (EncodeAddress(req.address) + (EncodeU16(req.port) + rest));
    assert input[..4] == head;
    assert input[4..] == EncodeAddress(req.address) + (EncodeU16(req.port) + rest);
    AddressRoundTrip(req.address, EncodeU16(req.port) + rest);
    ReadU16Encoded(req.port, rest);
  }

  /** Reading an encoded address back under its own type gives it back and consumes exactly its bytes. */
  lemma AddressRoundTrip(a: Address, rest: seq<Byte>)
    requires a.Domain? ==> |a.name| < 0x100
    ensures ReadAddress(AddressType(a), EncodeAddress(a) + rest) == Got(a, rest)
  {
    var input := EncodeAddress(a) + rest;
    match a
    case IPv4(ip) =>
      assert input[..4] == ip && input[4..] == rest;
    case IPv6(ip) =>
      assert input[..16] == ip && input[16..] == rest;
    case Domain(name) =>
      assert input[1..] == name + rest;
      assert input[1..][..|name|] == name && input[1..][|name|..] == rest;
  }

  /**
   * After a successful anonymous negotiation under the built-in policy, a
   * request other than CONNECT is answered with status 0x07 and nothing is
   * connected; a CONNECT is connected to exactly the requested destination
   * and answered with 0x00 on success, or with the status classified from
   * the failure, which is also the error returned.
   */
  lemma ConnectOutcome(methods: seq<Byte>, req: Request, reserved: Byte, rest: seq<Byte>, dial: Connector)
    requires |methods| < 0x100
    requires NoAuthentication.Code() in methods && UsernamePassword.Code() !in methods
    requires Encodable(req)
    ensures var x := Handshake(methods + EncodeRequest(req, reserved) + rest, |methods|, DoAuthenticate, dial);
            var c := ConnectToUpstream(req.address, req.port, dial);
            if req.command != COMMAND_CONNECT then
              x == Exchange([0x05, 0x00] + WriteResponse(CommandNotSupported),
                            Err(ProtocolError("command not supported")), rest, None)
            else
              match c.result
              case Ok(upstream) =>
                x == Exchange([0x05, 0x00] + WriteResponse(Granted), Ok((req, upstream)), rest, c.attempt)
              case Err(e) =>
                x == Exchange([0x05, 0x00] + WriteResponse(IoErrorToStatus(e)), Err(IoError(e)), rest, c.attempt)
  {
    assert methods + EncodeRequest(req, reserved) + rest == methods + (EncodeRequest(req, reserved) + rest);
    NoAuthenticationChosen(methods, EncodeRequest(req, reserved) + rest, DoAuthenticate);
    RequestRoundTrip(req, reserved, rest);
  }

  /**
   * When the policy accepts the credentials, the request that follows the
   * record is read and served exactly as after an anonymous negotiation:
   * the server writes `05 02`, `01 00` and then one reply, and a CONNECT is
   * connected to exactly the requested destination.
   */
  lemma CredentialsAcceptedThenServed(methods: seq<Byte>, version: Byte, username: seq<Byte>, password: seq<Byte>,
                                      req: Request, reserved: Byte, rest: seq<Byte>, policy: AuthPolicy, dial: Connector)
    requires |methods| < 0x100 && UsernamePassword.Code() in methods
    requires |username| < 0x100 && |password| < 0x100
    requires policy(Credentials(username, password)) == Accept
    requires Encodable(req)
    ensures var x := Handshake(methods + EncodeCredentials(version, username, password) + EncodeRequest(req, reserved) + rest,
                               |methods|, policy, dial);
            var c := ConnectToUpstream(req.address, req.port, dial);
            if req.command != COMMAND_CONNECT then
              x == Exchange([0x05, 0x02, 0x01, 0x00] + WriteResponse(CommandNotSupported),
                            Err(ProtocolError("command not supported")), rest, None)
            else
              match c.result
              case Ok(upstream) =>
                x == Exchange([0x05, 0x02, 0x01, 0x00] + WriteResponse(Granted), Ok((req, upstream)), rest, c.attempt)
              case Err(e) =>
                x == Exchange([0x05, 0x02, 0x01, 0x00] + WriteResponse(IoErrorToStatus(e)), Err(IoError(e)), rest, c.attempt)
  {
    var record := EncodeCredentials(version, username, password);
    var request := EncodeRequest(req, reserved);
    var input := methods + record + request + rest;
    assert input == methods + record + (request + rest);
    UsernamePasswordChosen(methods, version, username, password, request + rest, policy);
    assert AuthenticateClient(input, |methods|, policy) == Step([0x05, 0x02, 0x01, 0x00], Ok(()), request + rest);
    RequestRoundTrip(req, reserved, rest);
    ServedRequest(request + rest, req, rest, dial);
    var served := ServeRequest(request + rest, dial);
    assert Handshake(input, |methods|, policy, dial)
        == Exchange([0x05, 0x02, 0x01, 0x00] + served.written, served.result, served.rest, served.attempt);
  }

  /** Once a request has been read, serving it answers and connects as the request asks. */
  lemma ServedRequest(tail: seq<Byte>, req: Request, rest: seq<Byte>, dial: Connector)
    requires ReadRequest(tail) == Step([], Ok(req), rest)
    ensures var x := ServeRequest(tail, dial);
            var c := ConnectToUpstream(req.address, req.port, dial);
            if req.command != COMMAND_CONNECT then
              x == Exchange(WriteResponse(CommandNotSupported), Err(ProtocolError("command not supported")), rest, None)
            else
              match c.result
              case Ok(upstream) => x == Exchange(WriteResponse(Granted), Ok((req, upstream)), rest, c.attempt)
              case Err(e) => x == Exchange(WriteResponse(IoErrorToStatus(e)), Err(IoError(e)), rest, c.attempt)
  {
  }

  /**
   * After a successful anonymous negotiation, a request whose first byte is
   * not 5 ends the handshake with no reply beyond `05 00`: its four header
   * bytes are consumed and nothing is connected.
   */
  lemma RequestNotSocks5Unanswered(methods: seq<Byte>, version: Byte, command: Byte, reserved: Byte, atyp: Byte,
                                   rest: seq<Byte>, dial: Connector)
    requires |methods| < 0x100
    requires NoAuthentication.Code() in methods && UsernamePassword.Code() !in methods
    requires version != SOCKS5
    ensures Handshake(methods + ([version, command, reserved, atyp] + rest), |methods|, DoAuthenticate, dial)
         == Exchange([0x05, 0x00], Err(ProtocolError("request is not SOCKS5")), rest, None)
  {
    NoAuthenticationChosen(methods, [version, command, reserved, atyp] + rest, DoAuthenticate);
    assert ([version, command, reserved, atyp] + rest)[4..] == rest;
  }

  /** A request whose address type is not 1, 3 or 4 is answered with status 0x08 before its port is read. */
  lemma UnknownAddressTypeAnswered(command: Byte, reserved: Byte, atyp: Byte, rest: seq<Byte>)
    requires atyp !in {ATYP_IPV4, ATYP_DOMAIN, ATYP_IPV6}
    ensures ReadRequest([SOCKS5, command, reserved, atyp] + rest)
         == Step([0x05, 0x08, 0x00, 0x01, 0x00, 0x00, 0x00, 0x00, 0x00, 0x00], Err(ProtocolError("unknown address type")), rest)
  {
    assert ([SOCKS5, command, reserved, atyp] + rest)[4..] == rest;
  }

  /** Distinct statuses have distinct codes, so a client can always tell them apart. */
  lemma StatusCodesDistinct(a: Status, b: Status)
    ensures a.Code() == b.Code() <==> a == b
  {
  }
}

=== FILE: utf8.dfy ===
/**
 * UTF-8 well-formedness, the test `std::str::from_utf8` applies to a domain
 * name before it is handed to connect-by-name. The reference is Table 3-7 of
 * the Unicode Standard ("Well-Formed UTF-8 Byte Sequences"), the same table
 * RFC 3629 section 4 writes as a grammar.
 */
module Utf8 {
  import opened Wire

  /** A Unicode scalar value: a code point that is not a surrogate. */
  predicate IsScalar(cp: int) {
    0 <= cp <= 0x10_FFFF && !(0xD800 <= cp <= 0xDFFF)
  }

  /** A continuation byte, 10xxxxxx. */
  predicate Tail(b: Byte) {
    0x80 <= b <= 0xBF
  }

  /**
   * The length of the well-formed sequence at the front of `s`, or 0 when
   * `s` does not start with one. Each branch is one row of Table 3-7.
   */
  function SequenceLength(s: seq<Byte>): (n: nat)
    ensures n <= 4 && n <= |s|
    ensures n > 0 <==> |s| > 0 && (s[0] < 0x80 || n > 1)
  {
    if |s| == 0 then 0
    else if s[0] <= 0x7F then 1
    else if 0xC2 <= s[0] <= 0xDF then
      if |s| >= 2 && Tail(s[1]) then 2 else 0
    else if s[0] == 0xE0 then
      if |s| >= 3 && 0xA0 <= s[1] <= 0xBF && Tail(s[2]) then 3 else 0
    else if 0xE1 <= s[0] <= 0xEC || 0xEE <= s[0] <= 0xEF then
      if |s| >= 3 && Tail(s[1]) && Tail(s[2]) then 3 else 0
    else if s[0] == 0xED then
      if |s| >= 3 && 0x80 <= s[1] <= 0x9F && Tail(s[2]) then 3 else 0
    else if s[0] == 0xF0 then
      if |s| >= 4 && 0x90 <= s[1] <= 0xBF && Tail(s[2]) && Tail(s[3]) then 4 else 0
    else if 0xF1 <= s[0] <= 0xF3 then
      if |s| >= 4 && Tail(s[1]) && Tail(s[2]) && Tail(s[3]) then 4 else 0
    else if s[0] == 0xF4 then
      if |s| >= 4 && 0x80 <= s[1] <= 0x8F && Tail(s[2]) && Tail(s[3]) then 4 else 0
    else 0
  }

  /** A byte that occurs in some well-formed sequence: never C0, C1 or F5 to FF. */
  predicate UsedByUtf8(b: Byte) {
    b != 0xC0 && b != 0xC1 && b < 0xF5
  }

  /**
   * `s` is a concatenation of well-formed sequences (the test `from_utf8`
   * applies). Such text never contains a byte UTF-8 does not use.
   */
  predicate ValidUtf8(s: seq<Byte>)
    ensures ValidUtf8(s) ==> forall i :: 0 <= i < |s| ==> UsedByUtf8(s[i])
    decreases |s|
  {
    if |s| == 0 then true
    else
      var n := SequenceLength(s);
      FrontBytesUsed(s);
      assert forall i :: n <= i < |s| ==> s[i] == s[n..][i - n];
      n > 0 && ValidUtf8(s[n..])
  }

  /** The bytes of the well-formed sequence at the front are all bytes UTF-8 uses. */
  lemma FrontBytesUsed(s: seq<Byte>)
    ensures forall i :: 0 <= i < SequenceLength(s) ==> UsedByUtf8(s[i])
  {
  }

  /** The UTF-8 encoding of one scalar value. */
  function EncodeScalar(cp: int): (b: seq<Byte>)
    requires IsScalar(cp)
    ensures 1 <= |b| <= 4
  {
    if cp < 0x80 then [cp]
    else if cp < 0x800 then [0xC0 + cp / 0x40, 0x80 + cp % 0x40]
    else if cp < 0x1_0000 then
      [0xE0 + cp / 0x1000, 0x80 + (cp / 0x40) % 0x40, 0x80 + cp % 0x40]
    else
      [0xF0 + cp / 0x4_0000, 0x80 + (cp / 0x1000) % 0x40, 0x80 + (cp / 0x40) % 0x40, 0x80 + cp % 0x40]
  }

  /** The scalar value a well-formed sequence at the front of `s` stands for. */
  function DecodeScalar(s: seq<Byte>): int
    requires SequenceLength(s) > 0
  {
    var n := SequenceLength(s);
    if n == 1 then s[0]
    else if n == 2 then (s[0] as int - 0xC0) * 0x40 + (s[1] as int - 0x80)
    else if n == 3 then (s[0] as int - 0xE0) * 0x1000 + (s[1] as int - 0x80) * 0x40 + (s[2] as int - 0x80)
    else (s[0] as int - 0xF0) * 0x4_0000 + (s[1] as int - 0x80) * 0x1000 + (s[2] as int - 0x80) * 0x40 + (s[3] as int - 0x80)
  }

  /** The UTF-8 encoding of a sequence of scalar values. */
  function EncodeText(cps: seq<int>): (b: seq<Byte>)
    requires forall i :: 0 <= i < |cps| ==> IsScalar(cps[i])
  {
    if |cps| == 0 then [] else EncodeScalar(cps[0]) + EncodeText(cps[1..])
  }

  /** Splitting off six payload bits is undone by division and remainder by 0x40. */
  lemma SixBits(q: int, r: int)
    requires 0 <= r < 0x40
    ensures (q * 0x40 + r) / 0x40 == q && (q * 0x40 + r) % 0x40 == r
  {
  }

  /** Every encoded scalar is one well-formed sequence, whatever follows it, and decodes back to itself. */
  lemma EncodedScalarRoundTrip(cp: int, rest: seq<Byte>)
    requires IsScalar(cp)
    ensures SequenceLength(EncodeScalar(cp) + rest) == |EncodeScalar(cp)|
    ensures DecodeScalar(EncodeScalar(cp) + rest) == cp
  {
    if cp < 0x80 {
      assert (EncodeScalar(cp) + rest)[0] == cp;
    } else if cp < 0x800 {
      EncodedPairRoundTrip(cp, rest);
    } else if cp < 0x1_0000 {
      EncodedTripleRoundTrip(cp, rest);
    } else {
      EncodedQuadRoundTrip(cp, rest);
    }
  }

  lemma EncodedPairRoundTrip(cp: int, rest: seq<Byte>)
    requires 0x80 <= cp < 0x800
    ensures SequenceLength(EncodeScalar(cp) + rest) == 2
    ensures DecodeScalar(EncodeScalar(cp) + rest) == cp
  {
    var s := EncodeScalar(cp) + rest;
    var q, r := cp / 0x40, cp % 0x40;
    assert cp == q * 0x40 + r;
    assert s[0] == 0xC0 + q && s[1] == 0x80 + r;
  }

  lemma EncodedTripleRoundTrip(cp: int, rest: seq<Byte>)
    requires 0x800 <= cp < 0x1_0000 && IsScalar(cp)
    ensures SequenceLength(EncodeScalar(cp) + rest) == 3
    ensures DecodeScalar(EncodeScalar(cp) + rest) == cp
  {
    var s := EncodeScalar(cp) + rest;
    var q, r := cp / 0x40, cp % 0x40;
    var h, m := q / 0x40, q % 0x40;
    assert cp == q * 0x40 + r;
    assert q == h * 0x40 + m;
    assert cp / 0x1000 == h;
    assert s[0] == 0xE0 + h && s[1] == 0x80 + m && s[2] == 0x80 + r;
  }

  lemma EncodedQuadRoundTrip(cp: int, rest: seq<Byte>)
    requires 0x1_0000 <= cp <= 0x10_FFFF
    ensures SequenceLength(EncodeScalar(cp) + rest) == 4
    ensures DecodeScalar(EncodeScalar(cp) + rest) == cp
  {
    var s := EncodeScalar(cp) + rest;
    var q, r := cp / 0x40, cp % 0x40;
    var q2, m := q / 0x40, q % 0x40;
    var h, m2 := q2 / 0x40, q2 % 0x40;
    assert cp == q * 0x40 + r;
    assert q == q2 * 0x40 + m;
    assert q2 == h * 0x40 + m2;
    assert cp / 0x1000 == q2;
    assert cp / 0x4_0000 == h;
    assert s[0] == 0xF0 + h && s[1] == 0x80 + m2 && s[2] == 0x80 + m && s[3] == 0x80 + r;
  }

  /** Every well-formed sequence is the encoding of the scalar value it decodes to. */
  lemma DecodedScalarRoundTrip(s: seq<Byte>)
    requires SequenceLength(s) > 0
    ensures IsScalar(DecodeScalar(s))
    ensures EncodeScalar(DecodeScalar(s)) == s[..SequenceLength(s)]
  {
    var n := SequenceLength(s);
    if n == 2 {
      DecodedPairRoundTrip(s);
    } else if n == 3 {
      DecodedTripleRoundTrip(s);
    } else if n == 4 {
      DecodedQuadRoundTrip(s);
    }
  }

  lemma DecodedPairRoundTrip(s: seq<Byte>)
    requires SequenceLength(s) == 2
    ensures IsScalar(DecodeScalar(s))
    ensures EncodeScalar(DecodeScalar(s)) == s[..2]
  {
    SixBits(s[0] - 0xC0, s[1] - 0x80);
  }

  lemma DecodedTripleRoundTrip(s: seq<Byte>)
    requires SequenceLength(s) == 3
    ensures IsScalar(DecodeScalar(s))
    ensures EncodeScalar(DecodeScalar(s)) == s[..3]
  {
    var cp := DecodeScalar(s);
    var q := (s[0] as int - 0xE0) * 0x40 + (s[1] - 0x80);
    assert cp == q * 0x40 + (s[2] - 0x80);
    SixBits(q, s[2] - 0x80);
    SixBits(s[0] - 0xE0, s[1] - 0x80);
    assert cp / 0x1000 == q / 0x40;
  }

  lemma DecodedQuadRoundTrip(s: seq<Byte>)
    requires SequenceLength(s) == 4
    ensures IsScalar(DecodeScalar(s))
    ensures EncodeScalar(DecodeScalar(s)) == s[..4]
  {
    var cp := DecodeScalar(s);
    var q2 := (s[0] as int - 0xF0) * 0x40 + (s[1] - 0x80);
    var q := q2 * 0x40 + (s[2] - 0x80);
    assert cp == q * 0x40 + (s[3] - 0x80);
    SixBits(q, s[3] - 0x80);
    SixBits(q2, s[2] - 0x80);
    SixBits(s[0] - 0xF0, s[1] - 0x80);
    assert cp / 0x1000 == q / 0x40;
    assert cp / 0x4_0000 == q2 / 0x40;
  }

  /** The encoding of any text is accepted. */
  lemma {:induction false} EncodedTextIsValid(cps: seq<int>)
    requires forall i :: 0 <= i < |cps| ==> IsScalar(cps[i])
    ensures ValidUtf8(EncodeText(cps))
  {
    if |cps| > 0 {
      var head := EncodeScalar(cps[0]);
      EncodedScalarRoundTrip(cps[0], EncodeText(cps[1..]));
      EncodedTextIsValid(cps[1..]);
      assert (head + EncodeText(cps[1..]))[|head|..] == EncodeText(cps[1..]);
    }
  }

  /** Text made of ASCII bytes only, the usual host name, is accepted. */
  lemma {:induction false} AsciiIsValid(s: seq<Byte>)
    requires forall i :: 0 <= i < |s| ==> s[i] < 0x80
    ensures ValidUtf8(s)
  {
    if |s| > 0 {
      AsciiIsValid(s[1..]);
    }
  }

  /**
   * The executable form of the gate `ValidUtf8` states: the byte-by-byte
   * test `from_utf8` performs, walking the input one well-formed sequence at
   * a time and stopping at the first byte that does not start one.
   */
  method CheckUtf8(s: seq<Byte>) returns (ok: bool)
    ensures ok <==> ValidUtf8(s)
  {
    var i := 0;
    while i < |s|
      invariant 0 <= i <= |s|
      invariant ValidUtf8(s) <==> ValidUtf8(s[i..])
    {
      var n := SequenceLength(s[i..]);
      if n == 0 {
        return false;
      }
      assert s[i..][n..] == s[i + n..];
      i := i + n;
    }
    return true;
  }
}

=== FILE: wire.dfy ===
/**
 * Octets, ports and the reads the handshakes perform on the client's byte
 * stream. The stream is a finite sequence of bytes: a read either takes what
 * it needs from the front and leaves the rest, or runs past the end, which is
 * tokio's `UnexpectedEof` and leaves nothing behind.
 */
module Wire {

  /** An octet on the wire (Rust's `u8`). */
  type Byte = b: int | 0 <= b < 0x100

  /** A TCP port (Rust's `u16`). */
  type Port = p: int | 0 <= p < 0x1_0000

  /** A byte counter (Rust's `u64`). */
  type U64 = n: int | 0 <= n < 0x1_0000_0000_0000_0000

  /** The NUL byte that terminates SOCKS4 strings. */
  const NUL: Byte := 0

  /** The outcome of one read: the value and the unconsumed input, or end of stream. */
  datatype Read<T> = Got(value: T, rest: seq<Byte>) | Eof

  /** `read_exact`: exactly `n` bytes from the front of the stream. */
  function ReadExact(input: seq<Byte>, n: nat): (r: Read<seq<Byte>>)
    ensures r.Got? <==> n <= |input|
    ensures r.Got? ==> |r.value| == n && r.value + r.rest == input
  {
    if n <= |input| then Got(input[..n], input[n..]) else Eof
  }

  /** `read_u8`: one byte from the front of the stream. */
  function ReadU8(input: seq<Byte>): (r: Read<Byte>)
    ensures r.Got? <==> |input| > 0
    ensures r.Got? ==> [r.value] + r.rest == input
  {
    if |input| > 0 then Got(input[0], input[1..]) else Eof
  }

  /** The network-order (big-endian) encoding of a port. */
  function EncodeU16(p: Port): (b: seq<Byte>)
    ensures |b| == 2
  {
    [p / 0x100, p % 0x100]
  }

  /** `read_u16`: a big-endian 16-bit value from the front of the stream. */
  function ReadU16(input: seq<Byte>): (r: Read<Port>)
    ensures r.Got? <==> |input| >= 2
    ensures r.Got? ==> EncodeU16(r.value) + r.rest == input
  {
    match ReadExact(input, 2)
    case Eof => Eof
    case Got(b, rest) => Got(b[0] as int * 0x100 + b[1], rest)
  }

  /**
   * `read_until(delim)`: bytes up to and including the first `delim`, or all
   * the remaining bytes when there is none. It never fails at end of stream.
   */
  function ReadUntil(input: seq<Byte>, delim: Byte): (r: Read<seq<Byte>>)
    ensures r.Got? && r.value + r.rest == input
  {
    if |input| == 0 then Got([], [])
    else if input[0] == delim then Got([input[0]], input[1..])
    else
      var r := ReadUntil(input[1..], delim);
      assert input == [input[0]] + input[1..];
      Got([input[0]] + r.value, r.rest)
  }

  /** Reading a port back from its encoding recovers it. */
  lemma ReadU16Encoded(p: Port, rest: seq<Byte>)
    ensures ReadU16(EncodeU16(p) + rest) == Got(p, rest)
  {
    var input := EncodeU16(p) + rest;
    assert input[..2] == EncodeU16(p);
    assert input[2..] == rest;
  }

  /**
   * What a read up to `delim` takes: when the input holds a `delim`, exactly
   * the bytes up to and including the first one; otherwise all of it.
   */
  lemma {:induction false} ReadUntilStopsAtFirst(input: seq<Byte>, delim: Byte)
    ensures var r := ReadUntil(input, delim);
            && (delim in input ==>
                  |r.value| > 0 && r.value[|r.value| - 1] == delim && delim !in r.value[..|r.value| - 1])
            && (delim !in input ==> r.value == input && r.rest == [])
  {
    if |input| > 0 && input[0] != delim {
      ReadUntilStopsAtFirst(input[1..], delim);
      assert input == [input[0]] + input[1..];
      var r := ReadUntil(input[1..], delim);
      if delim in input {
        assert delim in input[1..];
        assert ([input[0]] + r.value)[..|r.value|] == [input[0]] + r.value[..|r.value| - 1];
      }
    }
  }

  /** A read up to `delim` stops right after the first `delim`. */
  lemma {:induction false} ReadUntilTerminated(s: seq<Byte>, delim: Byte, rest: seq<Byte>)
    requires delim !in s
    ensures ReadUntil(s + [delim] + rest, delim) == Got(s + [delim], rest)
  {
    if |s| == 0 {
      assert s + [delim] + rest == [delim] + rest;
    } else {
      var tail := s[1..] + [delim] + rest;
      ReadUntilTerminated(s[1..], delim, rest);
      assert s + [delim] + rest == [s[0]] + tail;
      ReadUntilPastByte(s[0], tail, delim);
      assert [s[0]] + (s[1..] + [delim]) == s + [delim];
    }
  }

  /** Without a `delim`, a read up to `delim` takes everything that is left. */
  lemma {:induction false} ReadUntilUnterminated(s: seq<Byte>, delim: Byte)
    requires delim !in s
    ensures ReadUntil(s, delim) == Got(s, [])
  {
    if |s| > 0 {
      ReadUntilUnterminated(s[1..], delim);
      assert s == [s[0]] + s[1..];
      ReadUntilPastByte(s[0], s[1..], delim);
    }
  }

  /** A byte other than `delim` is taken and the read goes on. */
  lemma ReadUntilPastByte(b: Byte, tail: seq<Byte>, delim: Byte)
    requires b != delim
    ensures ReadUntil([b] + tail, delim) == Got([b] + ReadUntil(tail, delim).value, ReadUntil(tail, delim).rest)
  {
    assert ([b] + tail)[1..] == tail;
  }

  /** What is left after reading a prefix of a tail of the input is itself a tail of the input. */
  lemma TailOfTail(input: seq<Byte>, k: nat, front: seq<Byte>, rest: seq<Byte>)
    requires k <= |input| && front + rest == input[k..]
    ensures |rest| <= |input| - k && rest == input[|input| - |rest|..]
  {
    assert input[k..][|front|..] == rest;
  }
}
